=== FILE: README.md ===
# faux-mysql-server protocol engine, in Dafny

This project models the protocol engine of faux-mysql-server (`src/index.js`). The engine is a server-side endpoint of the MySQL client/server text protocol. It sends the HandshakeV10 greeting and reads the client's HandshakeResponse41. It hands the authorization decision to a collaborator, splits command packets, and answers through OK, ERR, EOF, column-definition and row packets.

The model is functional. A connection is a `Conn`: a `Session` (phase, sequence counter, client charset, scramble) plus the bytes received but not yet dispatched. Every event takes a connection to a `Step`, which holds the next connection and the frames written, in order. The phase says whether the connection is closed (`Rejected` or `Crashed`).

The modules, in dependency order:

- **Base**: bytes, `Option`, `Result`, the JavaScript truthiness tests the source uses for defaults.
- **LittleEndian**, **Buffers**: `writeUIntLE`/`readUIntLE` and Node's clamping `slice` and `indexOf`.
- **Protocol**: the constants of `./constants` the engine uses.
- **LengthCoded**: `writeLengthCodedBinary` and `writeLengthCodedString`, with their readers, in two forms. `AsWritten` is the code's encoding, in which 0xFD is followed by four bytes. `Standard` is the protocol's, with three bytes.
- **Framer**: `writeHeader`'s frame, and `readPackets`/`gatherIncoming` as the pure function `Split`, from bytes to packets and the unconsumed tail.
- **Builders**: every payload builder and `newDefinition`, for either form.
- **Readers**: a client's reader for each payload, for either form. These are the builders' inverses.
- **Handshake**: `helloPacketHandler`'s parse, and the layout a client writes.
- **Engine**: the connection state machine (`Connect`, `Receive`, `Authorize`).
- **EngineProperties**, **Scenarios**: whole-conversation properties and the protocol's exchanges.

The engine writes the `AsWritten` form (`Engine.Wire`), so its frames are the bytes `src/index.js` sends. The round-trip lemmas hold for both forms. The lemmas that pair the code's bytes with a `Standard` reader show where a protocol client goes wrong.

Three things are parameters rather than computed:

- **The command collaborator** (`onCommand`). It is a function from a request to the send calls it makes.
- **The authorization decision** (`onAuthorize`). It is the explicit event `Authorize(conn, accepted)`.
- **The salt and connection id.** In the source they come from `crypto.randomBytes` and `process.pid`; here they are fields of `ServerOptions`.

## Model

| member | source | states |
|---|---|---|
| LittleEndian.DecodeEncode | src/index.js:31 | a number written little-endian into a field wide enough for it reads back unchanged |
| Buffers.Slice | src/index.js:250 | Buffer.slice clamps: in range it is the sub-sequence, past the end it stops at the end, and an empty or inverted range gives no bytes |
| Buffers.IndexOf | src/index.js:240 | the result is -1 exactly when the value does not occur at or after `from`; otherwise it is the first such position |
| LengthCoded.EncodeInt | src/index.js:327-342 | null is the single byte 0xFB; n < 251 is the single byte n; 251..65535 is 0xFC and two little-endian bytes; 65536..16777215 is 0xFD and a little-endian field of four bytes in the code's form, three in the protocol's |
| LengthCoded.DecodeIntRoundTrip | src/index.js:327-342 | in either form, the code's four-byte one included, a reader of that form recovers every encodable number or null and exactly the bytes after it |
| LengthCoded.EncodersAgreeBelow65536 | src/index.js:328-334 | below 65536, and for null, the source's bytes are exactly the protocol's |
| LengthCoded.ProtocolReaderMisreadsAsWritten | src/index.js:335-337 | for 65536..16777215 a protocol reader takes the right number from the source's bytes but leaves a stray 0x00 in front of the next field |
| LengthCoded.EncodeString | src/index.js:315-325 | a null string is the single byte 0x00 (not 0xFB); otherwise it is the form's length-coded byte count followed by exactly those bytes |
| LengthCoded.DecodeStringRoundTrip | src/index.js:315-325 | in either form, a length-coded string reads back as its bytes and the following bytes are untouched; a null string reads back as the empty string |
| LengthCoded.ProtocolReaderMisreadsLongString | src/index.js:321-323 | a string of 65536 bytes or more, written as the source writes it, reads back as a 0x00 followed by all but its last byte, and that last byte is left to be read as the next field |
| LengthCoded.EncodeCell | src/index.js:104-110 | a null row cell is the single byte 0xFB; a present cell, even an empty one, is a length-coded string that is longer than the cell, never starts with 0xFB and ends with exactly the cell's bytes |
| LengthCoded.DecodeCellRoundTrip | src/index.js:104-110 | in either form, a cell reads back exactly, and null stays distinct from the empty string |
| LengthCoded.DecodeCellsRoundTrip | src/index.js:101-113 | in either form, a run of cells reads back cell for cell, leaving the bytes after the run |
| Framer.Frame | src/index.js:30-33 | a frame is four header bytes longer than its payload |
| Framer.FrameFields | src/index.js:30-33 | bytes 0-2 hold the payload length little-endian, byte 3 the sequence counter modulo 256, then comes the payload |
| Framer.Next | src/index.js:204-212 | a packet is cut exactly when at least four bytes and the whole declared payload are buffered; the rest is strictly shorter |
| Framer.NextIsFrame | src/index.js:207-212 | the packet cut off is the frame of its sequence id and payload, so the payload has exactly the declared length, and the rest follows it |
| Framer.NextOfFrame | src/index.js:201-212 | a frame followed by any bytes is cut back into its sequence id and payload and exactly those bytes |
| Framer.NextAppend | src/index.js:201-212 | bytes arriving after a complete packet do not change the packet cut |
| Framer.Split | src/index.js:201-217 | readPackets' result: every packet fits a header, and the tail is not a complete packet (shorter than 4 bytes or than its declared length plus 4) |
| Framer.SplitConserves | src/index.js:201-217 | the frames of the packets cut, followed by the tail, are the input buffer: no byte is lost, added or reordered |
| Framer.SplitJoin | src/index.js:201-217 | framing packets and appending an incomplete tail, then splitting, gives back those packets and that tail |
| Framer.SplitFrame | src/index.js:30-33 | one stamped frame reads back as exactly one packet, numbered with the counter modulo 256 |
| Framer.EmptyPayloadIsDispatched | src/index.js:207-214 | a zero-length packet is cut and handed on like any other |
| Framer.SplitAppend | src/index.js:182-199 | splitting a buffer that grew is splitting the old buffer, then splitting its tail with the new bytes |
| Framer.ChunkIndependence | src/index.js:182-199 | buffering chunks one by one yields the same packets and tail as splitting their concatenation |
| Builders.ServerHelloPayload | src/index.js:133-169 | the greeting starts with protocol 10, ends with a NUL, and is 26 bytes longer than banner and salt together |
| Builders.SqlStateField | src/index.js:307 | exactly min(5, length) bytes of the SQL state are written, as its prefix: all of a shorter state, the first five of a longer one |
| Builders.ErrorPayload | src/index.js:299-313 | an ERR payload starts with 0xFF, ends with NUL, and is five bytes longer than its SQL state and message |
| Builders.EofPayload | src/index.js:122-131 | an EOF payload is five bytes starting with 0xFE |
| Builders.QueryIsColumnsThenRows | src/index.js:82-99 | with columns, the result set is sendDefinitions followed by sendRows, in count + columns + 3 packets |
| Readers.OkRoundTrip | src/index.js:284-297 | in either form, a client reads back the affected rows, the insert id (absent stays absent), the autocommit status, the warning count and the message (absent reads as empty) |
| Readers.ProtocolReaderRejectsSourceOk | src/index.js:284-297 | with an insert id of 65536 or more (and fewer than 65536 affected rows and 256 warnings), a protocol reader cannot parse the OK packet the code writes |
| Readers.ErrRoundTrip | src/index.js:299-313 | a client reads back the error number, the five-byte SQL state and the message |
| Readers.EofRoundTrip | src/index.js:122-131 | a client reads back the warning count and the status |
| Readers.RowRoundTrip | src/index.js:101-113 | in either form, a row packet holds exactly the row's cells and nothing else |
| Readers.RowsReadBack | src/index.js:115-118 | sendRows writes one packet per row, in row order, and each reads back as exactly its row |
| Readers.ColumnFixedPartFields | src/index.js:66-72 | the fixed part carries 0x0C, charset 33, the display length, type, flags, decimals and two zero bytes at the protocol's offsets |
| Readers.ColumnRoundTrip | src/index.js:56-80 | in either form, a definition packet reads back with its six names (missing ones empty), charset 33, length, type, flags, decimals and, when requested, its default |
| Readers.DefinitionsReadBack | src/index.js:59-78 | sendFieldList writes one definition packet per column, in column order, and each reads back as its column |
| Readers.NewColumnReadsBack | src/index.js:39-54 | a client reads newDefinition's column with catalog "def" unless a non-empty one was given, missing names empty, charset 33, type VARCHAR unless a nonzero one was given, length 255 for VARCHAR and 0 for other types unless a nonzero one was given, flags and decimals 0 when missing, and the default empty when missing |
| Readers.NamedColumnReadsBack | src/index.js:39-54 | a column given by its name alone reads back as VARCHAR(255) in catalog "def" with charset 33, the name in fifth place, every other name empty and an empty default |
| Readers.ServerHelloRoundTrip | src/index.js:133-169 | a client reads back the banner, connection id, all salt bytes, the capabilities, the charset and the status |
| Readers.QueryResponseReadsBack | src/index.js:82-120 | in either form, no columns gives one plain OK; otherwise the count, one definition per column, an EOF, one packet per row holding that row, and a final EOF |
| Handshake.ParseHello | src/index.js:219-259 | an empty hello, and only it, is the zero-length error; a hello of 8 bytes or less throws; a longer hello parses exactly when the scramble-length byte lies inside it (the byte after the username's NUL, or byte 0 when there is none), so a hello whose username NUL is its last byte throws at readUInt8; on success flags, size and charset come from offsets 0, 4 and 8, and the username is the bytes from 32 up to the first NUL at or after 32, or empty when there is none |
| Handshake.ReadFromUsername | src/index.js:240-259 | the parse succeeds exactly when the scramble-length byte after the terminator lies inside the packet, and otherwise fails with the out-of-range error; when a terminator was found the username is exactly the bytes from 32 up to it, and holds no NUL; with none it is empty |
| Handshake.ReadScramble | src/index.js:246-252 | a scramble is taken exactly when its length byte is not zero, and is that many bytes when the packet holds them |
| Handshake.ReadDatabase | src/index.js:256-259 | a database is read exactly when a further NUL exists, and it is the NUL-free bytes up to that NUL |
| Handshake.ParseEncodeHello | src/index.js:219-259 | the parser recovers every field of a well-formed client hello |
| Engine.Send | src/index.js:30-37 | one frame stamped with the counter modulo 256; the counter goes up by exactly one and nothing else changes |
| Engine.SendAll | src/index.js:30-33 | the i-th of consecutive frames carries the counter plus i modulo 256, so the byte wraps from 255 to 0 |
| Engine.SendAllNumbered | src/index.js:30-33 | any single frame of consecutive sends is numbered the counter plus its position, modulo 256 |
| Engine.SendAllAppend | src/index.js:30-33 | sending two lists of payloads one after the other is sending their concatenation |
| Engine.EmptyQuerySendsOk | src/index.js:82-85 | a query response with no columns is sendable whatever its rows hold, and goes out as the single plain OK |
| Engine.Perform | src/index.js:279-282 | with every response sendable, the collaborator's calls are consecutive sends of all their payloads; otherwise the connection crashes; charset and scramble are untouched |
| Engine.PerformSendsRun | src/index.js:279-282 | what is written, and the counter left, are those of sending every response before the first one that cannot be built, so a reply after a failure follows exactly what was already sent |
| Engine.SplitCommand | src/index.js:277-283 | an empty packet, and only it, has no command; otherwise byte 0 is the command, extra is present exactly when the packet is longer than one byte, and the two make up the packet |
| Engine.SplitCommandPacket | src/index.js:277-283 | the split recovers every request a client can express |
| Engine.Dispatch | src/index.js:214 | a dispatched packet ends in a crash, a pending authorization or the same phase; the command handler never leaves the command phase except by crashing |
| Engine.Drain | src/index.js:201-217 | after draining an open connection no complete packet waits while a handler is installed; with no handler installed nothing happens |
| Engine.DrainKeepsCommand | src/index.js:277-283 | draining in the command phase ends in the command phase or in a crash |
| Engine.Receive | src/index.js:171-199 | a closed connection receives nothing; an open one is left with no complete packet waiting while a handler is installed |
| Engine.Authorize | src/index.js:262-274 | outside authorization it is ignored; a false decision writes exactly one ERR "Authorization Failure" numbered with the counter and drops the buffer; a true one writes the replies to the buffered packets, drained by the command handler, then exactly one OK (or, if draining threw, one ERR) numbered after them; a connection with no complete packet waiting is left with none |
| Engine.Refuse | src/index.js:270-274 | the failure ERR follows what was already sent, numbered with the counter; the connection ends and drops its buffer |
| Engine.Admit | src/index.js:263-269 | exactly one frame follows what draining wrote: on an open connection an OK numbered with the counter, which then goes up by one, with phase and buffer kept; on a crashed one the failure ERR, after which the connection is rejected with no buffer |
| Engine.Connect | src/index.js:8-25 | the greeting goes out as packet 0, the counter is then 1, and the hello handler waits with an empty buffer |
| EngineProperties.DrainAppend | src/index.js:182-217 | draining a buffer that grew is draining the old buffer and then the new bytes on the connection that results |
| EngineProperties.ReceiveAppend | src/index.js:171-199 | two deliveries in a row act as one delivery of their concatenation |
| EngineProperties.ReceiveChunks | src/index.js:171-199 | splitting a byte stream into any chunks writes the same frames and leaves the same connection as delivering it at once |
| EngineProperties.Run | src/index.js:201-217 | handing packets to the handler leaves at most as many undispatched as it was given, and none while a handler stays installed |
| EngineProperties.RunLeavesSuffix | src/index.js:201-217 | the packets left undispatched are exactly the last ones given, in order |
| EngineProperties.DrainDispatchesSplit | src/index.js:201-217 | the engine dispatches exactly the packets the framer cuts, in order, and keeps the frames of those it did not dispatch followed by the incomplete tail |
| Scenarios.ReceiveSingle | src/index.js:210 | a single complete packet is handled with the counter set to its sequence number plus one, and nothing stays buffered |
| Scenarios.HelloStartsAuthorization | src/index.js:219-262 | a well-formed hello keeps the charset (and the scramble when sent), writes nothing, and requests authorization with the hello's flags, size, username and database |
| Scenarios.ZeroLengthHelloAnswered | src/index.js:224 | an empty hello is answered by one ERR packet numbered received-seq + 1, and the hello handler stays installed |
| Scenarios.CommandAnswered | src/index.js:277-283 | a command packet is answered by the collaborator's replies, numbered from received-seq + 1, and nothing stays buffered |
| Scenarios.EmptyCommandCrashes | src/index.js:280 | an empty command packet writes nothing and ends the connection, with whatever followed it |
| Scenarios.AuthorizingBuffers | src/index.js:260 | while the decision is pending received bytes are only buffered, complete packets included, and nothing is written |
| Scenarios.AuthorizeAcceptedIdle | src/index.js:263-269 | a true decision installs the command handler and sends one OK with the current counter |
| Scenarios.AuthorizeRefused | src/index.js:270-274 | a false decision sends one ERR "Authorization Failure" with the current counter and ends the connection, dropping the buffer |
| Scenarios.BufferedCommandAnsweredBeforeOk | src/index.js:266-268 | a command that arrived during authorization is answered before the OK, which is numbered after its replies; if answering throws, the failure ERR follows what was sent |

## Left out

- Socket I/O: `sendPacket`, `socket.on`, `socket.destroy`, `handleDisconnect` and every `console.log`. Frames become the `out` list of a step, and destruction becomes a closed phase.
- `crypto.randomBytes` and `process.pid`: both are fields of `ServerOptions`.
- The promise machinery around `onAuthorize`: its settling is the `Authorize` event. A synchronous throw from `onAuthorize` escapes the source's handler and is not modelled.
- The `writeLengthCodedBinary` branch for 16777216 and above: it calls `writeUIntLE` without a byte length and throws in Node. `LengthCoded.Encodable` excludes it. A response that would write such a value is unsendable, and the model crashes the connection on it. Only values that are written count: the rows of a query response with no columns and the defaults of a field list sent without defaults may be of any length.
- The fixed scratch sizes of `Buffer.alloc` (16, 128, 512, 1024 bytes), with their truncation and RangeError behaviour: payloads are unbounded sequences.
- ASCII and UTF-8 transcoding and the `toString()` coercion of non-string cells: strings and cells are bytes.
- `handleData(null)` and the empty-queue branch of `gatherIncoming`: the socket never delivers `null`, and the queue always holds the tail.
- `packetCount`: it is never read.
- example.js, its TCP listener and its PING/QUIT handling: the engine forwards every command to the collaborator unchanged. Its QUIT branch calls `this.disconnect()`, which `src/index.js` does not define.
- `onCommand` is a synchronous function of the request alone (`Engine.Collaborator`). It keeps no state of its own and cannot throw. It cannot reply after it returns or destroy the socket.
- Engine: `Crashed` stands for an uncaught exception. In Node that ends the whole process, not just this connection.
- Builders: the warning count, error number, column length and flags have the types `u16` and `u32`. So the RangeError that `writeUInt16LE` or `writeUInt32LE` throws on an out-of-range value in `sendOK`, `sendError` or `sendDefinition` is not modelled.
- Engine.Drain: while no handler is installed (authorization pending), a complete packet stays buffered. This is a modelling choice. The source would call the null `onPacket` and throw. `Scenarios.AuthorizingBuffers` and `Scenarios.BufferedCommandAnsweredBeforeOk` rest on this choice: both describe a packet that arrives while authorization is pending, a state in which the source throws. That includes a hello and a command sent in one chunk.
- Engine.Perform: a response that cannot be sent crashes the connection before any of its packets is written. The source would already have written the packets it built before the throw.
- Builders.ServerHelloPayload: requires a salt of at least eight bytes. The source's default salt has 20 bytes, and a shorter user-supplied salt is not modelled.
- Engine.ErrorReply: requires a message under 4096 bytes. It is only used for the engine's own two messages.
- Readers.ErrRoundTrip: requires a SQL state of at least five bytes (the default `HY000` has five). A shorter state is written short and a protocol reader would not find the message where it expects it.
- Readers.ServerHelloRoundTrip: requires a banner without a NUL byte. A reader ends the banner at the first NUL.
- Run: its own contract bounds how many packets are left. That they are the last ones given is stated by `EngineProperties.RunLeavesSuffix`, which keeps `Run`'s contract small for the proofs that unfold it.
- Scenarios.CommandAnswered: the replies are stated through `Engine.Perform`. Their numbering follows from `Engine.SendAll`, rather than being spelled out frame by frame.

## Where the documented behaviour and the code differ

In each of these cases the model follows `src/index.js`:

- The protocol's 0xFD length field has three bytes; the code writes four. The engine writes four (see Findings).
- A null string is written as 0x00 by `writeLengthCodedString`, not as the null marker 0xFB. Only row cells and the absent insert id use 0xFB.
- An empty hello is answered with ERR, and the hello handler stays installed. The connection is not ended.
- The database name is read only when a further NUL exists, not whenever bytes remain.
- An empty command packet is not treated as a disconnect: `readUInt8(0)` throws, and the connection is lost. QUIT and PING are not recognised by the engine.

## Findings

| source | as written | input that shows it | evidently intended | confidence | as-written member | corrected member |
|---|---|---|---|---|---|---|
| src/index.js:335-337 | a number in 65536..16777215 is written as 0xFD followed by a four-byte `writeUInt32LE` field | 65536, written as FD 00 00 01 00; a protocol reader takes three bytes, gets 65536, and reads the stray 00 as the start of the next field | 0xFD followed by a three-byte little-endian field, as the length-encoded integer of the MySQL client/server protocol defines it | not executed | LengthCoded.ProtocolReaderMisreadsAsWritten | LengthCoded.DecodeIntRoundTrip |
| src/index.js:289 | sendOK writes the insert id with the same four-byte field | sendOK({insertId: 70000}) is 12 bytes, 00 00 FD 70 11 01 00 02 00 00 00 00; a protocol reader reads status 512, warnings 0, an empty message, and is left with one byte over | the same OK packet with a three-byte id field, 11 bytes long | not executed | Readers.ProtocolReaderRejectsSourceOk | Readers.OkRoundTrip |

Both halves share one codec, selected by `LengthCoded.Form`. The as-written members pair the code's `AsWritten` bytes with a `Standard` reader. The corrected members are the round trips in the `Standard` form, where the protocol's three-byte field is written and read. The engine keeps the `AsWritten` form, so that its frames are the bytes the code sends.

=== FILE: base.dfy ===
/** Value types shared by every module: octets, fixed-width field values,
    optional values (JavaScript's null/undefined) and results. */
module Base {

  /** One octet, as a Node Buffer stores it. */
  type byte = b: int | 0 <= b < 0x100

  /** Field values accepted by writeUInt16LE and writeUInt32LE. */
  type u16 = n: int | 0 <= n < 0x1_0000
  type u32 = n: int | 0 <= n < 0x1_0000_0000

  type bytes = seq<byte>

  /** A value the caller may leave null or undefined. */
  datatype Option<+T> = None | Some(value: T) {
    function GetOr(default: T): T {
      match this
      case Some(v) => v
      case None => default
    }
  }

  datatype Result<+T, +E> = Success(value: T) | Failure(error: E)

  /** JavaScript truthiness of an optional number: absent and zero are both false. */
  predicate Truthy(n: Option<int>) {
    n.Some? && n.value != 0
  }

  /** JavaScript truthiness of an optional string: absent and empty are both false. */
  predicate Filled(s: Option<bytes>) {
    s.Some? && |s.value| > 0
  }

  /** The bytes of a string literal; every literal passed here is ASCII. */
  function Ascii(s: string): bytes {
    seq(|s|, i requires 0 <= i < |s| => (s[i] as int) % 0x100)
  }

  function Zeros(n: nat): (r: bytes)
    ensures |r| == n
  {
    seq(n, _ => 0)
  }

  predicate NoNul(s: bytes) {
    forall i | 0 <= i < |s| :: s[i] != 0
  }

  /** The chunks of a byte stream joined in arrival order. */
  function Concat(chunks: seq<bytes>): bytes {
    if |chunks| == 0 then [] else chunks[0] + Concat(chunks[1..])
  }

  lemma ConcatAssoc<T>(a: seq<T>, b: seq<T>, c: seq<T>)
    ensures a + b + c == a + (b + c)
  {
  }

  lemma DropPrefix<T>(a: seq<T>, b: seq<T>)
    ensures (a + b)[|a|..] == b
  {
  }

  lemma TakePrefix<T>(a: seq<T>, b: seq<T>)
    ensures (a + b)[..|a|] == a
  {
  }

  lemma SliceOfPrefix<T>(a: seq<T>, b: seq<T>, i: nat, j: nat)
    requires i <= j <= |a|
    ensures (a + b)[i..j] == a[i..j]
  {
  }
}

=== FILE: buffers.dfy ===
/** The Node Buffer operations whose edge cases the client-hello parser
    depends on: clamping slices and a forward byte search. */
module Buffers {
  import opened Base

  /** buf.slice(start, end): the end is clamped to the buffer, and an empty
      or inverted range yields no bytes. */
  function Slice(b: bytes, start: nat, end: nat): (r: bytes)
    ensures start <= end <= |b| ==> r == b[start..end]
    ensures start <= |b| <= end ==> r == b[start..]
    ensures end <= start || |b| <= start ==> r == []
  {
    var e := if end < |b| then end else |b|;
    if start >= e then [] else b[start..e]
  }

  /** buf.indexOf(value, from): the first position at or after `from` that
      holds `value`, or -1 when there is none. */
  function IndexOf(b: bytes, value: byte, from: nat): (i: int)
    ensures i == -1 || (from <= i < |b| && b[i] == value)
    ensures i == -1 ==> forall k | from <= k < |b| :: b[k] != value
    ensures i != -1 ==> forall k | from <= k < i :: b[k] != value
    decreases |b| - from
  {
    if from >= |b| then -1
    else if b[from] == value then from
    else IndexOf(b, value, from + 1)
  }

  /** A search that starts on a run of non-matching bytes stops at the first
      matching byte after it. */
  lemma IndexOfAfterRun(b: bytes, value: byte, from: nat, runLength: nat)
    requires from + runLength < |b|
    requires forall k | from <= k < from + runLength :: b[k] != value
    requires b[from + runLength] == value
    ensures IndexOf(b, value, from) == from + runLength
  {
  }
}

=== FILE: builders.dfy ===
/** The response builders of src/index.js: the byte layout of each payload
    the server sends (the four-byte header is added by Framer.Frame). Each
    builder that writes length-coded fields takes the form to write them
    in; the engine passes the code's own, LengthCoded.AsWritten. */
module Builders {
  import opened Base
  import LittleEndian
  import LengthCoded
  import Protocol

  const OkMarker: byte := 0x00
  const ErrMarker: byte := 0xFF
  const EofMarker: byte := 0xFE
  const SqlStateMarker: byte := 0x23
  const ColumnFixedLength: byte := 0x0C

  function U16(n: u16): (r: bytes)
    ensures |r| == 2 && LittleEndian.Decode(r) == n
  {
    LittleEndian.Widths();
    LittleEndian.DecodeEncode(n, 2);
    LittleEndian.Encode(n, 2)
  }

  function U32(n: u32): (r: bytes)
    ensures |r| == 4 && LittleEndian.Decode(r) == n
  {
    LittleEndian.Widths();
    LittleEndian.DecodeEncode(n, 4);
    LittleEndian.Encode(n, 4)
  }

  // ---------------------------------------------------------------- greeting

  /** The constructor options the greeting depends on. The salt is
      crypto.randomBytes(20) and the connection id is process.pid in the
      source; both are inputs here. */
  datatype ServerOptions = ServerOptions(
    banner: Option<bytes>,
    salt: bytes,
    serverCharset: Option<byte>,
    connectionId: u32)

  /** An empty or missing banner is replaced by the default. */
  function Banner(o: ServerOptions): bytes {
    if Filled(o.banner) then o.banner.value else Ascii(Protocol.DefaultBanner)
  }

  /** A zero or missing server charset is replaced by 0x21. */
  function GreetingCharset(o: ServerOptions): byte {
    if Truthy(o.serverCharset) then o.serverCharset.value else Protocol.DefaultServerCharset
  }

  /** sendServerHello (HandshakeV10): protocol 10, banner, NUL, connection id,
      the first eight salt bytes, NUL, capabilities, charset, status, thirteen
      zero bytes, the rest of the salt, NUL. */
  function ServerHelloPayload(o: ServerOptions): (r: bytes)
    requires |o.salt| >= 8
    ensures |r| == 26 + |Banner(o)| + |o.salt|
    ensures r[0] == Protocol.ProtocolVersion && r[|r| - 1] == 0
  {
    [Protocol.ProtocolVersion] + Banner(o) + [0] + U32(o.connectionId) + o.salt[..8] + [0]
      + U16(Protocol.ServerCapabilities) + [GreetingCharset(o)] + U16(Protocol.ServerStatusAutocommit)
      + Zeros(13) + o.salt[8..] + [0]
  }

  // ---------------------------------------------------------------- OK / ERR / EOF

  /** sendOK's arguments after defaulting: affectedRows defaults to 0,
      insertId and message may be absent, warningCount defaults to 0. */
  datatype OkFields = OkFields(
    affectedRows: nat,
    insertId: Option<nat>,
    warningCount: u16,
    message: Option<bytes>)

  /** sendOK({}) */
  const PlainOk: OkFields := OkFields(0, None, 0, None)

  predicate OkBuildable(f: OkFields) {
    && f.affectedRows < LengthCoded.Limit
    && LengthCoded.Encodable(f.insertId)
    && LengthCoded.StringEncodable(f.message)
  }

  /** sendOK (OK_Packet): marker 0x00, affected rows, insert id (0xFB when
      absent), the autocommit status, the warning count, the message. */
  function OkPayload(form: LengthCoded.Form, f: OkFields): (r: bytes)
    requires OkBuildable(f)
    ensures |r| >= 7 && r[0] == OkMarker
  {
    [OkMarker] + LengthCoded.EncodeInt(form, Some(f.affectedRows)) + LengthCoded.EncodeInt(form, f.insertId)
      + U16(Protocol.ServerStatusAutocommit) + U16(f.warningCount) + LengthCoded.EncodeString(form, f.message)
  }

  /** sendError's arguments after defaulting. */
  datatype ErrFields = ErrFields(errno: u16, sqlState: bytes, message: bytes)

  /** sendError({message}): errno 2000 and state HY000. */
  function ErrorWithMessage(message: bytes): ErrFields {
    ErrFields(Protocol.DefaultErrorNumber, Ascii(Protocol.DefaultSqlState), message)
  }

  /** The SQL state as written: buf.write(sqlState, pos, 5) keeps at most
      five bytes. */
  function SqlStateField(state: bytes): (r: bytes)
    ensures |r| <= 5 && |r| <= |state| && r == state[..|r|]
    ensures |state| >= 5 ==> |r| == 5
    ensures |r| == if |state| < 5 then |state| else 5
  {
    if |state| <= 5 then state else state[..5]
  }

  /** sendError (ERR_Packet): marker 0xFF, errno, '#', the SQL state, the
      message, a trailing NUL. */
  function ErrorPayload(f: ErrFields): (r: bytes)
    ensures |r| == 5 + |SqlStateField(f.sqlState)| + |f.message|
    ensures r[0] == ErrMarker && r[|r| - 1] == 0
  {
    [ErrMarker] + U16(f.errno) + [SqlStateMarker] + SqlStateField(f.sqlState) + f.message + [0]
  }

  /** sendEOF (EOF_Packet): marker 0xFE, warning count, status. */
  function EofPayload(warningCount: u16, serverStatus: u16): (r: bytes)
    ensures |r| == 5 && r[0] == EofMarker
  {
    [EofMarker] + U16(warningCount) + U16(serverStatus)
  }

  /** sendEOF() with its defaults: no warnings, autocommit. */
  function PlainEof(): bytes {
    EofPayload(0, Protocol.ServerStatusAutocommit)
  }

  // ---------------------------------------------------------------- columns

  /** What a caller may give newDefinition; every field may be left out. */
  datatype ColumnSpec = ColumnSpec(
    catalog: Option<bytes>,
    db: Option<bytes>,
    table: Option<bytes>,
    orgTable: Option<bytes>,
    name: Option<bytes>,
    orgName: Option<bytes>,
    columnType: Option<byte>,
    length: Option<u32>,
    flags: Option<u16>,
    decimals: Option<byte>,
    defaultValue: Option<bytes>)

  /** The shorthand of a column given by its name alone. */
  function NameOnly(name: bytes): ColumnSpec {
    ColumnSpec(None, None, None, None, Some(name), None, None, None, None, None, None)
  }

  /** A column definition as sendFieldList reads it. */
  datatype Definition = Definition(
    catalog: Option<bytes>,
    schema: Option<bytes>,
    table: Option<bytes>,
    orgTable: Option<bytes>,
    name: Option<bytes>,
    orgName: Option<bytes>,
    columnLength: u32,
    columnType: byte,
    flags: u16,
    decimals: Option<byte>,
    defaultValue: Option<bytes>)

  /** newDefinition: a zero or missing type becomes VARCHAR, an empty or
      missing catalog becomes "def", a zero or missing length becomes 255 for
      VARCHAR and 0 otherwise, missing flags become 0; the other fields are
      carried over as given. */
  function NewDefinition(spec: ColumnSpec): (d: Definition)
    ensures d.columnType == (if Truthy(spec.columnType) then spec.columnType.value else Protocol.TypeVarchar)
    ensures d.catalog == (if Filled(spec.catalog) then spec.catalog else Some(Ascii(Protocol.DefaultCatalog)))
    ensures Truthy(spec.length) ==> d.columnLength == spec.length.value
    ensures !Truthy(spec.length) && d.columnType == Protocol.TypeVarchar ==> d.columnLength == Protocol.VarcharDefaultLength
    ensures !Truthy(spec.length) && d.columnType != Protocol.TypeVarchar ==> d.columnLength == 0
    ensures d.flags == spec.flags.GetOr(0)
    ensures d.schema == spec.db && d.table == spec.table && d.orgTable == spec.orgTable
    ensures d.name == spec.name && d.orgName == spec.orgName
    ensures d.decimals == spec.decimals && d.defaultValue == spec.defaultValue
  {
    var t := if Truthy(spec.columnType) then spec.columnType.value else Protocol.TypeVarchar;
    Definition(
      if Filled(spec.catalog) then spec.catalog else Some(Ascii(Protocol.DefaultCatalog)),
      spec.db, spec.table, spec.orgTable, spec.name, spec.orgName,
      if Truthy(spec.length) then spec.length.value
      else if t == Protocol.TypeVarchar then Protocol.VarcharDefaultLength else 0,
      t,
      if spec.flags.Some? then spec.flags.value else 0,
      spec.decimals,
      spec.defaultValue)
  }

  /** The six names of a definition in wire order; a missing one is sent as
      the empty string. */
  function Names(d: Definition): (r: seq<Option<bytes>>)
    ensures |r| == 6
  {
    [ Some(d.catalog.GetOr([])), Some(d.schema.GetOr([])), Some(d.table.GetOr([])),
      Some(d.orgTable.GetOr([])), Some(d.name.GetOr([])), Some(d.orgName.GetOr([])) ]
  }

  /** The fields of a definition packet fit their length codes; the default
      matters only when it is written. */
  predicate DefinitionBuildable(d: Definition, includeDefaults: bool) {
    && LengthCoded.CellsEncodable(Names(d))
    && (includeDefaults ==> LengthCoded.StringEncodable(d.defaultValue))
  }

  /** The fixed-width part after the six names: 0x0C, charset 33, display
      length, type, flags, decimals, two zero bytes. */
  function ColumnFixedPart(d: Definition): (r: bytes)
    ensures |r| == 13
  {
    [ColumnFixedLength] + U16(Protocol.ColumnCharset) + U32(d.columnLength) + [d.columnType]
      + U16(d.flags) + [d.decimals.GetOr(0)] + [0, 0]
  }

  /** One packet of sendFieldList (ColumnDefinition41): the six names as
      length-coded strings, the fixed part, then the default value when
      defaults are included. */
  function ColumnDefinitionPayload(form: LengthCoded.Form, d: Definition, includeDefaults: bool): (r: bytes)
    requires DefinitionBuildable(d, includeDefaults)
  {
    LengthCoded.EncodeCells(form, Names(d)) + ColumnFixedPart(d)
      + (if includeDefaults then LengthCoded.EncodeString(form, d.defaultValue) else [])
  }

  // ---------------------------------------------------------------- rows

  /** A row: one cell per column, null or bytes. */
  type Row = seq<Option<bytes>>

  /** sendRow: each cell in order, 0xFB for null, a length-coded string
      otherwise. */
  function RowPayload(form: LengthCoded.Form, row: Row): bytes
    requires LengthCoded.CellsEncodable(row)
  {
    LengthCoded.EncodeCells(form, row)
  }

  // ---------------------------------------------------------------- result sets

  /** sendQueryResponse with no columns sends a plain OK and never looks at
      the rows. */
  predicate QueryBuildable(columns: seq<Definition>, rows: seq<Row>) {
    && |columns| < LengthCoded.Limit
    && (forall i | 0 <= i < |columns| :: DefinitionBuildable(columns[i], true))
    && (|columns| > 0 ==> forall j | 0 <= j < |rows| :: LengthCoded.CellsEncodable(rows[j]))
  }

  /** sendFieldList's definition packets, one per column. */
  function DefinitionPayloads(form: LengthCoded.Form, columns: seq<Definition>, includeDefaults: bool): (r: seq<bytes>)
    requires forall i | 0 <= i < |columns| :: DefinitionBuildable(columns[i], includeDefaults)
    ensures |r| == |columns|
    ensures forall i | 0 <= i < |columns| :: r[i] == ColumnDefinitionPayload(form, columns[i], includeDefaults)
  {
    seq(|columns|, i requires 0 <= i < |columns| => ColumnDefinitionPayload(form, columns[i], includeDefaults))
  }

  /** sendRows' row packets, one per row. */
  function RowPayloads(form: LengthCoded.Form, rows: seq<Row>): (r: seq<bytes>)
    requires forall j | 0 <= j < |rows| :: LengthCoded.CellsEncodable(rows[j])
    ensures |r| == |rows|
    ensures forall j | 0 <= j < |rows| :: r[j] == RowPayload(form, rows[j])
  {
    seq(|rows|, j requires 0 <= j < |rows| => RowPayload(form, rows[j]))
  }

  /** sendFieldList: one definition packet per column, then an EOF packet. */
  function FieldListPayloads(form: LengthCoded.Form, columns: seq<Definition>, includeDefaults: bool): (r: seq<bytes>)
    requires forall i | 0 <= i < |columns| :: DefinitionBuildable(columns[i], includeDefaults)
  {
    DefinitionPayloads(form, columns, includeDefaults) + [PlainEof()]
  }

  /** sendDefinitions: the length-coded column count, then the field list
      with defaults. */
  function ColumnsPayloads(form: LengthCoded.Form, columns: seq<Definition>): (r: seq<bytes>)
    requires |columns| < LengthCoded.Limit
    requires forall i | 0 <= i < |columns| :: DefinitionBuildable(columns[i], true)
  {
    [LengthCoded.EncodeInt(form, Some(|columns|))] + FieldListPayloads(form, columns, true)
  }

  /** sendRows: one packet per row, then an EOF packet. */
  function RowsPayloads(form: LengthCoded.Form, rows: seq<Row>): (r: seq<bytes>)
    requires forall j | 0 <= j < |rows| :: LengthCoded.CellsEncodable(rows[j])
  {
    RowPayloads(form, rows) + [PlainEof()]
  }

  /** sendQueryResponse (text result set): a lone OK packet when there are no
      columns; otherwise the column count, the definitions with their
      defaults, an EOF packet, the rows, and a final EOF packet. */
  function QueryResponsePayloads(form: LengthCoded.Form, columns: seq<Definition>, rows: seq<Row>): (r: seq<bytes>)
    requires QueryBuildable(columns, rows)
  {
    if |columns| == 0 then [OkPayload(form, PlainOk)]
    else
      [LengthCoded.EncodeInt(form, Some(|columns|))] + DefinitionPayloads(form, columns, true) + [PlainEof()]
        + RowPayloads(form, rows) + [PlainEof()]
  }

  /** With at least one column, sendQueryResponse is sendDefinitions followed
      by sendRows, and the whole result set has 2 + |columns| + 1 + |rows|
      packets (count, definitions, EOF, rows, EOF). */
  lemma QueryIsColumnsThenRows(form: LengthCoded.Form, columns: seq<Definition>, rows: seq<Row>)
    requires QueryBuildable(columns, rows)
    requires |columns| > 0
    ensures QueryResponsePayloads(form, columns, rows) == ColumnsPayloads(form, columns) + RowsPayloads(form, rows)
    ensures |QueryResponsePayloads(form, columns, rows)| == |columns| + |rows| + 3
  {
    var count := [LengthCoded.EncodeInt(form, Some(|columns|))];
    var defs := DefinitionPayloads(form, columns, true);
    var eof := [PlainEof()];
    var rs := RowPayloads(form, rows);
    ConcatAssoc(count + defs + eof, rs, eof);
    ConcatAssoc(count, defs, eof);
    ConcatAssoc(count, defs + eof, rs + eof);
  }

  // ---------------------------------------------------------------- responses

  /** What the command collaborator asks the engine to send: one call of a
      public send method. */
  datatype Response =
    | Ok(ok: OkFields)
    | Error(err: ErrFields)
    | Eof(warningCount: u16, serverStatus: u16)
    | FieldList(columns: seq<Definition>, includeDefaults: bool)
    | Columns(columns: seq<Definition>)
    | RowPacket(row: Row)
    | Rows(rows: seq<Row>)
    | Query(columns: seq<Definition>, rows: seq<Row>)

  predicate Buildable(r: Response) {
    match r
    case Ok(f) => OkBuildable(f)
    case Error(_) => true
    case Eof(_, _) => true
    case FieldList(columns, includeDefaults) => forall i | 0 <= i < |columns| :: DefinitionBuildable(columns[i], includeDefaults)
    case Columns(columns) => QueryBuildable(columns, [])
    case RowPacket(row) => LengthCoded.CellsEncodable(row)
    case Rows(rows) => forall j | 0 <= j < |rows| :: LengthCoded.CellsEncodable(rows[j])
    case Query(columns, rows) => QueryBuildable(columns, rows)
  }

  /** The payloads one response puts on the wire, in order. */
  function Payloads(form: LengthCoded.Form, r: Response): (ps: seq<bytes>)
    requires Buildable(r)
    ensures |ps| > 0
  {
    match r
    case Ok(f) => [OkPayload(form, f)]
    case Error(f) => [ErrorPayload(f)]
    case Eof(w, status) => [EofPayload(w, status)]
    case FieldList(columns, includeDefaults) => FieldListPayloads(form, columns, includeDefaults)
    case Columns(columns) => ColumnsPayloads(form, columns)
    case RowPacket(row) => [RowPayload(form, row)]
    case Rows(rows) => RowsPayloads(form, rows)
    case Query(columns, rows) => QueryResponsePayloads(form, columns, rows)
  }
}

=== FILE: engine.dfy ===
/** The connection of src/index.js as a state machine: the greeting, the
    handler held in onPacket (hello, none while authorization is pending,
    command), the sequence counter, and the bytes received but not yet
    dispatched.

    Every event is a function from the connection to the next connection
    and the frames written to the socket, in order. The command collaborator
    (onCommand) is a parameter that maps a request to the send calls it
    makes; the authorization decision (onAuthorize) is an explicit event. */
module Engine {
  import opened Base
  import Framer
  import LengthCoded
  import Builders
  import Handshake

  /** The engine writes the length-coded fields as src/index.js does. */
  const Wire: LengthCoded.Form := LengthCoded.AsWritten

  // ---------------------------------------------------------------- state

  /** What onAuthorize is handed: the hello's flags, maximum packet size,
      username and database. */
  datatype AuthRequest = AuthRequest(
    clientFlags: bytes,
    maxPacketSize: bytes,
    username: bytes,
    database: Option<bytes>)

  /** The handler onPacket holds, and the two ways a connection ends:
      Rejected after the authorization failure was reported and the socket
      destroyed, Crashed when an exception escaped a handler. */
  datatype Phase =
    | Greeting
    | Authorizing(request: AuthRequest)
    | Command
    | Rejected
    | Crashed

  /** The server's per-connection fields other than the incoming buffer. */
  datatype Session = Session(
    phase: Phase,
    sequence: nat,
    clientCharset: Option<byte>,
    scramble: Option<bytes>)
  {
    predicate Closed() {
      phase.Rejected? || phase.Crashed?
    }

    /** A handler is installed, so readPackets hands complete packets on. */
    predicate Dispatching() {
      phase.Greeting? || phase.Command?
    }
  }

  datatype Conn = Conn(session: Session, pending: bytes)
  {
    predicate Closed() {
      session.Closed()
    }
  }

  /** A session after some sends, and the frames written. */
  datatype Emit = Emit(session: Session, out: seq<bytes>)

  /** A connection after an event, and the frames written. */
  datatype Step = Step(conn: Conn, out: seq<bytes>)

  /** No complete packet waits to be dispatched, and a closed connection
      keeps nothing. */
  predicate Settled(c: Conn) {
    && (c.Closed() ==> c.pending == [])
    && (c.session.Dispatching() ==> !Framer.Complete(c.pending))
  }

  // ---------------------------------------------------------------- sending

  /** sendPacket after writeHeader: one frame stamped with the counter, which
      then goes up by one. */
  function Send(s: Session, payload: bytes): (e: Emit)
    requires Framer.Framable(payload)
    ensures e.session == s.(sequence := s.sequence + 1)
    ensures |e.out| == 1
    ensures Framer.Split(e.out[0]) == ([Framer.Packet(s.sequence % 256, payload)], [])
  {
    Framer.SplitFrame(s.sequence, payload);
    Emit(s.(sequence := s.sequence + 1), [Framer.Frame(s.sequence, payload)])
  }

  predicate PayloadsFramable(payloads: seq<bytes>) {
    forall i | 0 <= i < |payloads| :: Framer.Framable(payloads[i])
  }

  lemma PayloadsFramableAppend(a: seq<bytes>, b: seq<bytes>)
    requires PayloadsFramable(a) && PayloadsFramable(b)
    ensures PayloadsFramable(a + b)
  {
    forall i | 0 <= i < |a + b|
      ensures Framer.Framable((a + b)[i])
    {
      if i >= |a| {
        assert (a + b)[i] == b[i - |a|];
      }
    }
  }

  /** Consecutive sends: the i-th frame carries the counter plus i, modulo
      256, so the sequence byte wraps from 255 to 0. */
  function SendAll(s: Session, payloads: seq<bytes>): (e: Emit)
    requires PayloadsFramable(payloads)
    ensures e.session == s.(sequence := s.sequence + |payloads|)
    ensures |e.out| == |payloads|
    ensures forall i | 0 <= i < |payloads| ::
      Framer.Split(e.out[i]) == ([Framer.Packet((s.sequence + i) % 256, payloads[i])], [])
    decreases |payloads|
  {
    if |payloads| == 0 then Emit(s, [])
    else
      var first := Send(s, payloads[0]);
      var rest := SendAll(first.session, payloads[1..]);
      Emit(rest.session, first.out + rest.out)
  }

  /** The i-th frame of consecutive sends, on its own. */
  lemma SendAllNumbered(s: Session, payloads: seq<bytes>, i: nat)
    requires PayloadsFramable(payloads) && i < |payloads|
    ensures Framer.Split(SendAll(s, payloads).out[i]) == ([Framer.Packet((s.sequence + i) % 256, payloads[i])], [])
  {
  }

  /** Sending two lists one after the other is sending their concatenation. */
  lemma {:induction false} SendAllAppend(s: Session, a: seq<bytes>, b: seq<bytes>)
    requires PayloadsFramable(a) && PayloadsFramable(b)
    ensures PayloadsFramable(a + b)
    ensures SendAll(s, a + b)
      == Emit(SendAll(SendAll(s, a).session, b).session, SendAll(s, a).out + SendAll(SendAll(s, a).session, b).out)
    decreases |a|
  {
    if |a| == 0 {
      assert a + b == b;
    } else {
      var first := Send(s, a[0]);
      assert (a + b)[0] == a[0];
      assert (a + b)[1..] == a[1..] + b;
      SendAllAppend(first.session, a[1..], b);
      var x := SendAll(first.session, a[1..]);
      var y := SendAll(x.session, b);
      ConcatAssoc(first.out, x.out, y.out);
    }
  }

  /** A response the engine can put on the wire: it builds, and every one of
      its payloads fits a packet header. */
  predicate Sendable(r: Builders.Response) {
    Builders.Buildable(r) && PayloadsFramable(Builders.Payloads(Wire, r))
  }

  predicate AllSendable(responses: seq<Builders.Response>) {
    forall i | 0 <= i < |responses| :: Sendable(responses[i])
  }

  lemma AllSendableCons(responses: seq<Builders.Response>)
    requires |responses| > 0
    ensures AllSendable(responses) <==> Sendable(responses[0]) && AllSendable(responses[1..])
  {
    if Sendable(responses[0]) && AllSendable(responses[1..]) {
      forall i | 0 <= i < |responses|
        ensures Sendable(responses[i])
      {
        if i > 0 {
          assert responses[i] == responses[1..][i - 1];
        }
      }
    }
  }

  /** Every payload of a list of responses, in order. */
  function AllPayloads(responses: seq<Builders.Response>): (ps: seq<bytes>)
    requires AllSendable(responses)
    ensures PayloadsFramable(ps)
    decreases |responses|
  {
    if |responses| == 0 then []
    else
      var first := Builders.Payloads(Wire, responses[0]);
      var rest := AllPayloads(responses[1..]);
      PayloadsFramableAppend(first, rest);
      first + rest
  }

  /** How many responses, from the front, can be sent before the first one
      that cannot. */
  function SendableRun(responses: seq<Builders.Response>): (k: nat)
    ensures k <= |responses|
    ensures AllSendable(responses[..k])
    ensures k < |responses| ==> !Sendable(responses[k])
    ensures k == |responses| <==> AllSendable(responses)
    decreases |responses|
  {
    if |responses| == 0 || !Sendable(responses[0]) then 0
    else
      var k := 1 + SendableRun(responses[1..]);
      assert AllSendable(responses[..k]) by {
        assert responses[..k][1..] == responses[1..][..k - 1];
        AllSendableCons(responses[..k]);
      }
      assert k < |responses| ==> responses[k] == responses[1..][k - 1];
      AllSendableCons(responses);
      k
  }

  /** The payloads of a sendable run, first response split off. */
  lemma AllPayloadsCons(responses: seq<Builders.Response>, k: nat)
    requires 0 < k <= |responses| && AllSendable(responses[..k])
    ensures AllSendable(responses[1..][..k - 1])
    ensures AllPayloads(responses[..k]) == Builders.Payloads(Wire, responses[0]) + AllPayloads(responses[1..][..k - 1])
  {
    assert responses[..k][1..] == responses[1..][..k - 1];
    AllSendableCons(responses[..k]);
  }

  /** The collaborator's send calls, one after another. A response that
      cannot be built throws, which ends the connection. */
  function Perform(s: Session, responses: seq<Builders.Response>): (e: Emit)
    ensures AllSendable(responses) ==> e == SendAll(s, AllPayloads(responses))
    ensures !AllSendable(responses) ==> e.session.phase == Crashed
    ensures e.session.clientCharset == s.clientCharset && e.session.scramble == s.scramble
    ensures !e.session.phase.Crashed? ==> e.session.phase == s.phase
    decreases |responses|
  {
    if |responses| == 0 then Emit(s, [])
    else if !Sendable(responses[0]) then Emit(s.(phase := Crashed), [])
    else
      var payloads := Builders.Payloads(Wire, responses[0]);
      var first := SendAll(s, payloads);
      var rest := Perform(first.session, responses[1..]);
      AllSendableCons(responses);
      assert AllSendable(responses) ==> Emit(rest.session, first.out + rest.out) == SendAll(s, AllPayloads(responses)) by {
        if AllSendable(responses) {
          SendAllAppend(s, payloads, AllPayloads(responses[1..]));
        }
      }
      Emit(rest.session, first.out + rest.out)
  }

  /** Whether or not a response cannot be sent, what Perform writes, and the
      counter it leaves, are those of sending the responses before the first
      one that cannot. */
  lemma {:induction false} PerformSendsRun(s: Session, responses: seq<Builders.Response>)
    ensures var k := SendableRun(responses);
      var sent := SendAll(s, AllPayloads(responses[..k]));
      && Perform(s, responses).out == sent.out
      && Perform(s, responses).session.sequence == sent.session.sequence
    decreases |responses|
  {
    if |responses| > 0 && Sendable(responses[0]) {
      var k := SendableRun(responses);
      var payloads := Builders.Payloads(Wire, responses[0]);
      var first := SendAll(s, payloads);
      PerformSendsRun(first.session, responses[1..]);
      AllPayloadsCons(responses, k);
      SendAllAppend(s, payloads, AllPayloads(responses[1..][..k - 1]));
    }
  }

  // ---------------------------------------------------------------- handlers

  /** The argument of onCommand. */
  datatype Request = Request(command: byte, extra: Option<bytes>)

  /** The command collaborator: the send calls it makes for a request. */
  type Collaborator = Request -> seq<Builders.Response>

  /** normalPacketHandler's split: byte 0 is the command, the rest is extra,
      or null for a one-byte packet. An empty packet has no byte 0, and
      readUInt8 throws. */
  function SplitCommand(p: bytes): (r: Option<Request>)
    ensures r.None? <==> |p| == 0
    ensures r.Some? ==> r.value.command == p[0]
    ensures r.Some? ==> (r.value.extra.Some? <==> |p| > 1)
    ensures r.Some? ==> [r.value.command] + r.value.extra.GetOr([]) == p
  {
    if |p| == 0 then None
    else Some(Request(p[0], if |p| > 1 then Some(p[1..]) else None))
  }

  /** The packet a client sends for a request. */
  function CommandPacket(r: Request): bytes {
    [r.command] + r.extra.GetOr([])
  }

  /** A request whose extra part, when present, is not empty. */
  predicate Canonical(r: Request) {
    r.extra.Some? ==> r.extra.value != []
  }

  /** The split recovers every request a client can express. */
  lemma SplitCommandPacket(r: Request)
    requires Canonical(r)
    ensures SplitCommand(CommandPacket(r)) == Some(r)
  {
    var p := CommandPacket(r);
    assert p[1..] == r.extra.GetOr([]);
  }

  /** The error message sent for an empty hello. */
  const ZeroLengthHello: string := "Zero length hello packet"

  /** The error message sent when authorization fails. */
  const AuthorizationFailure: string := "Authorization Failure"

  /** sendError({message}) for the engine's own messages. */
  function ErrorReply(message: string): (r: bytes)
    requires |message| < 0x1000
    ensures Framer.Framable(r)
  {
    Builders.ErrorPayload(Builders.ErrorWithMessage(Ascii(message)))
  }

  /** sendOK({}) */
  function OkReply(): (r: bytes)
    ensures Framer.Framable(r)
  {
    assert LengthCoded.EncodeInt(Wire, Some(0)) == [0];
    assert LengthCoded.EncodeInt(Wire, None) == [LengthCoded.NullMarker];
    Builders.OkPayload(Wire, Builders.PlainOk)
  }

  /** sendQueryResponse with no columns sends only sendOK({}), whatever the
      rows hold, even cells too long to be written. */
  lemma EmptyQuerySendsOk(rows: seq<Builders.Row>)
    ensures Sendable(Builders.Query([], rows))
    ensures Builders.Payloads(Wire, Builders.Query([], rows)) == [OkReply()]
  {
    var ok := OkReply();
    assert Builders.Payloads(Wire, Builders.Query([], rows)) == [ok];
  }

  /** helloPacketHandler: an empty hello is answered with an ERR packet and
      the handler stays; a hello too short for a field the parser reads
      throws; otherwise the charset and (when sent) the scramble are kept,
      the handler is removed and authorization is requested. */
  function Hello(s: Session, payload: bytes): (e: Emit)
  {
    match Handshake.ParseHello(payload)
    case Failure(ZeroLength) => Send(s, ErrorReply(ZeroLengthHello))
    case Failure(OutOfRange) => Emit(s.(phase := Crashed), [])
    case Success(h) =>
      var request := AuthRequest(h.clientFlags, h.maxPacketSize, h.username, h.database);
      var scramble := if h.scramble.Some? then h.scramble else s.scramble;
      Emit(s.(phase := Authorizing(request), clientCharset := Some(h.charset), scramble := scramble), [])
  }

  /** onPacket(packet) for the handler the phase names. */
  function Dispatch(s: Session, payload: bytes, respond: Collaborator): (e: Emit)
    requires s.Dispatching()
    ensures e.session.phase.Crashed? || e.session.phase.Authorizing? || e.session.phase == s.phase
    ensures s.phase.Command? ==> e.session.phase.Command? || e.session.phase.Crashed?
  {
    if s.phase.Greeting? then Hello(s, payload)
    else
      match SplitCommand(payload)
      case None => Emit(s.(phase := Crashed), [])
      case Some(request) => Perform(s, respond(request))
  }

  /** What readPackets calls for one packet: the installed handler. */
  type Handler = (Session, bytes) -> Emit

  /** The handler the connection installs for a given collaborator. */
  function Handle(respond: Collaborator): Handler {
    (s: Session, payload: bytes) => if s.Dispatching() then Dispatch(s, payload, respond) else Emit(s, [])
  }

  /** The installed handler is the phase's handler. */
  lemma HandleDispatches(respond: Collaborator, s: Session, payload: bytes)
    requires s.Dispatching()
    ensures Handle(respond)(s, payload) == Dispatch(s, payload, respond)
  {
  }

  // ---------------------------------------------------------------- receiving

  /** readPackets over the buffered bytes: while a handler is installed and a
      whole packet is buffered, the counter is set to the packet's sequence
      number plus one and the packet is dispatched. Once no handler is
      installed the rest stays buffered; a crash drops it. */
  function Drain(c: Conn, handle: Handler): (r: Step)
    ensures !c.Closed() ==> Settled(r.conn)
    ensures !c.session.Dispatching() ==> r == Step(c, [])
    decreases |c.pending|
  {
    if !c.session.Dispatching() then Step(c, [])
    else
      match Framer.Next(c.pending)
      case None => Step(c, [])
      case Some(cut) =>
        var e := handle(c.session.(sequence := cut.packet.sequenceId + 1), cut.packet.payload);
        if e.session.Closed() then Step(Conn(e.session, []), e.out)
        else
          var rest := Drain(Conn(e.session, cut.rest), handle);
          Step(rest.conn, e.out + rest.out)
  }

  /** The command handler never removes itself: draining in the command
      phase ends in the command phase or in a crash. */
  lemma {:induction false} DrainKeepsCommand(c: Conn, respond: Collaborator)
    requires c.session.phase.Command?
    ensures Drain(c, Handle(respond)).conn.session.phase.Command? || Drain(c, Handle(respond)).conn.session.phase.Crashed?
    decreases |c.pending|
  {
    if Framer.Complete(c.pending) {
      var cut := Framer.Next(c.pending).value;
      var s := c.session.(sequence := cut.packet.sequenceId + 1);
      var e := Handle(respond)(s, cut.packet.payload);
      assert e == Dispatch(s, cut.packet.payload, respond);
      if !e.session.Closed() {
        DrainKeepsCommand(Conn(e.session, cut.rest), respond);
      }
    }
  }

  /** handleData then gatherIncoming: the chunk is appended to the buffered
      bytes and they are drained. A closed connection receives nothing. */
  function Receive(c: Conn, chunk: bytes, respond: Collaborator): (r: Step)
    ensures c.Closed() ==> r == Step(c, [])
    ensures !c.Closed() ==> Settled(r.conn)
  {
    if c.Closed() then Step(c, [])
    else Drain(Conn(c.session, c.pending + chunk), Handle(respond))
  }

  /** The outcome of onAuthorize, delivered when its promise settles. A false
      decision sends ERR and destroys the socket. A true one installs the
      command handler, drains what arrived meanwhile and then sends OK; an
      exception while draining is caught and reported like a refusal. */
  function Authorize(c: Conn, accepted: bool, respond: Collaborator): (r: Step)
    ensures !c.session.phase.Authorizing? ==> r == Step(c, [])
    ensures c.session.phase.Authorizing? ==> r.conn.session.phase.Command? || r.conn.session.phase.Rejected?
    ensures c.session.phase.Authorizing? && !accepted ==> r.conn.session.phase == Rejected
    ensures c.session.phase.Authorizing? && !accepted ==>
              && r.conn.pending == [] && |r.out| == 1
              && Framer.Split(r.out[0]) == ([Framer.Packet(c.session.sequence % 256, ErrorReply(AuthorizationFailure))], [])
    ensures c.session.phase.Authorizing? && accepted ==>
              var d := Drain(Conn(c.session.(phase := Command), c.pending), Handle(respond));
              var last := if r.conn.session.phase.Command? then OkReply() else ErrorReply(AuthorizationFailure);
              && |r.out| == |d.out| + 1 && r.out[..|d.out|] == d.out
              && Framer.Split(r.out[|d.out|]) == ([Framer.Packet(d.conn.session.sequence % 256, last)], [])
    ensures Settled(c) ==> Settled(r.conn)
  {
    if !c.session.phase.Authorizing? then Step(c, [])
    else if !accepted then Refuse(c.session, [])
    else
      var resumed := Conn(c.session.(phase := Command), c.pending);
      DrainKeepsCommand(resumed, respond);
      Admit(Drain(resumed, Handle(respond)))
  }

  /** The .catch branch: the failure is reported and the socket destroyed. */
  function Refuse(s: Session, sent: seq<bytes>): (r: Step)
    ensures r.conn.session == s.(phase := Rejected, sequence := s.sequence + 1)
    ensures r.conn.pending == []
    ensures |r.out| == |sent| + 1 && r.out[..|sent|] == sent
    ensures Framer.Split(r.out[|sent|]) == ([Framer.Packet(s.sequence % 256, ErrorReply(AuthorizationFailure))], [])
  {
    var e := Send(s, ErrorReply(AuthorizationFailure));
    Step(Conn(e.session.(phase := Rejected), []), sent + e.out)
  }

  /** After the command handler drained the buffered packets: OK, or the
      failure report when draining threw. */
  function Admit(d: Step): (r: Step)
    requires d.conn.session.phase.Command? || d.conn.session.phase.Crashed?
    requires !d.conn.Closed() ==> Settled(d.conn)
    ensures r.conn.session.phase.Command? || r.conn.session.phase.Rejected?
    ensures Settled(r.conn)
    ensures |r.out| == |d.out| + 1 && r.out[..|d.out|] == d.out
    ensures !d.conn.Closed() ==>
              && r.conn == Conn(d.conn.session.(sequence := d.conn.session.sequence + 1), d.conn.pending)
              && Framer.Split(r.out[|d.out|]) == ([Framer.Packet(d.conn.session.sequence % 256, OkReply())], [])
    ensures d.conn.Closed() ==>
              && r.conn.session.phase == Rejected && r.conn.pending == []
              && Framer.Split(r.out[|d.out|]) == ([Framer.Packet(d.conn.session.sequence % 256, ErrorReply(AuthorizationFailure))], [])
  {
    if d.conn.Closed() then Refuse(d.conn.session, d.out)
    else
      var e := Send(d.conn.session, OkReply());
      Step(Conn(e.session, d.conn.pending), d.out + e.out)
  }

  /** The constructor: the greeting goes out with sequence number 0, and the
      hello handler waits for the client's answer. */
  function Connect(o: Builders.ServerOptions): (r: Step)
    requires |o.salt| >= 8
    requires Framer.Framable(Builders.ServerHelloPayload(o))
    ensures r.conn == Conn(Session(Greeting, 1, None, None), [])
    ensures |r.out| == 1
    ensures Framer.Split(r.out[0]) == ([Framer.Packet(0, Builders.ServerHelloPayload(o))], [])
    ensures Settled(r.conn)
  {
    var e := Send(Session(Greeting, 0, None, None), Builders.ServerHelloPayload(o));
    Step(Conn(e.session, []), e.out)
  }
}

=== FILE: engine_properties.dfy ===
/** What the connection state machine promises over whole conversations:
    chunk boundaries do not matter, the engine dispatches exactly the packets
    the framer finds, and the handshake and command exchanges produce the
    replies the protocol expects. */
module EngineProperties {
  import opened Base
  import Framer
  import Builders
  import Handshake
  import opened Engine

  // ---------------------------------------------------------------- chunking

  /** A second delivery after a first: the connection after both, and the
      frames of both in order. */
  function Then(first: Step, more: bytes, handle: Handler): Step {
    var next := Continue(first.conn, more, handle);
    Step(next.conn, first.out + next.out)
  }

  /** The drain after further bytes arrive on a connection. */
  function Continue(c: Conn, more: bytes, handle: Handler): Step {
    if c.Closed() then Step(c, []) else Drain(Conn(c.session, c.pending + more), handle)
  }

  /** Draining a buffer that grew at the end is draining the original
      buffer and then the new bytes. */
  lemma {:induction false} DrainAppend(c: Conn, more: bytes, handle: Handler)
    requires !c.Closed()
    ensures Drain(Conn(c.session, c.pending + more), handle) == Then(Drain(c, handle), more, handle)
    decreases |c.pending|
  {
    var grown := Conn(c.session, c.pending + more);
    var d := Drain(c, handle);
    if !c.session.Dispatching() {
      assert d == Step(c, []);
      assert Then(d, more, handle).out == [] + [];
    } else if !Framer.Complete(c.pending) {
      assert d == Step(c, []);
      assert [] + Drain(grown, handle).out == Drain(grown, handle).out;
    } else {
      var cut := Framer.Next(c.pending).value;
      Framer.NextAppend(c.pending, more);
      var cutGrown := Framer.Cut(cut.packet, cut.rest + more);
      var e := handle(c.session.(sequence := cut.packet.sequenceId + 1), cut.packet.payload);
      if e.session.Closed() {
        DrainUnfoldClosed(c, handle, cut, e);
        DrainUnfoldClosed(grown, handle, cutGrown, e);
        assert Then(d, more, handle) == Step(d.conn, e.out + []);
        assert e.out + [] == e.out;
      } else {
        var inner := Conn(e.session, cut.rest);
        var rest := Drain(inner, handle);
        DrainUnfoldOpen(c, handle, cut, e);
        DrainUnfoldOpen(grown, handle, cutGrown, e);
        DrainAppend(inner, more, handle);
        var next := Continue(rest.conn, more, handle);
        assert Drain(grown, handle) == Step(next.conn, e.out + (rest.out + next.out));
        assert Then(d, more, handle) == Step(next.conn, (e.out + rest.out) + next.out);
        ConcatAssoc(e.out, rest.out, next.out);
      }
    }
  }

  /** Two deliveries in a row act as one delivery of their concatenation. */
  lemma ReceiveAppend(c: Conn, a: bytes, b: bytes, respond: Collaborator)
    ensures Receive(c, a + b, respond) == Then(Receive(c, a, respond), b, Handle(respond))
  {
    if c.Closed() {
      assert Then(Step(c, []), b, Handle(respond)).out == [] + [];
    } else {
      ConcatAssoc(c.pending, a, b);
      DrainAppend(Conn(c.session, c.pending + a), b, Handle(respond));
    }
  }

  /** handleData once per chunk, in arrival order. */
  function ReceiveAll(c: Conn, chunks: seq<bytes>, respond: Collaborator): Step
    decreases |chunks|
  {
    if |chunks| == 0 then Step(c, [])
    else
      var first := Receive(c, chunks[0], respond);
      var rest := ReceiveAll(first.conn, chunks[1..], respond);
      Step(rest.conn, first.out + rest.out)
  }

  /** Chunk boundaries do not matter: delivering a byte stream in any chunks
      writes the same frames and leaves the same connection as delivering it
      at once. */
  lemma {:induction false} ReceiveChunks(c: Conn, chunks: seq<bytes>, respond: Collaborator)
    requires Settled(c)
    ensures ReceiveAll(c, chunks, respond) == Receive(c, Concat(chunks), respond)
    decreases |chunks|
  {
    if |chunks| == 0 {
      if !c.Closed() {
        assert c.pending + [] == c.pending;
        assert Conn(c.session, c.pending) == c;
      }
    } else {
      var first := Receive(c, chunks[0], respond);
      ReceiveAppend(c, chunks[0], Concat(chunks[1..]), respond);
      assert Then(first, Concat(chunks[1..]), Handle(respond)).conn == Receive(first.conn, Concat(chunks[1..]), respond).conn;
      ReceiveChunks(first.conn, chunks[1..], respond);
    }
  }

  // ---------------------------------------------------------------- dispatch

  /** A session after dispatching packets, the frames written, and the
      packets not dispatched because the handler was removed. */
  datatype Ran = Ran(session: Session, out: seq<bytes>, left: seq<Framer.Packet>)

  /** The reference reading of readPackets: hand the packets to the handler
      one by one, each with the counter set to its sequence number plus one,
      for as long as a handler is installed. */
  function Run(s: Session, packets: seq<Framer.Packet>, handle: Handler): (r: Ran)
    ensures |r.left| <= |packets|
    ensures s.Dispatching() && r.session.Dispatching() ==> r.left == []
    decreases |packets|
  {
    if |packets| == 0 || !s.Dispatching() then Ran(s, [], packets)
    else
      var e := handle(s.(sequence := packets[0].sequenceId + 1), packets[0].payload);
      var rest := Run(e.session, packets[1..], handle);
      Ran(rest.session, e.out + rest.out, rest.left)
  }

  /** `a` is what remains of `b` after some packets were taken from its
      front. */
  predicate IsSuffix(a: seq<Framer.Packet>, b: seq<Framer.Packet>) {
    |a| <= |b| && a == b[|b| - |a|..]
  }

  /** The packets Run leaves are the last ones it was given. */
  lemma {:induction false} RunLeavesSuffix(s: Session, packets: seq<Framer.Packet>, handle: Handler)
    ensures IsSuffix(Run(s, packets, handle).left, packets)
    decreases |packets|
  {
    if |packets| > 0 && s.Dispatching() {
      var e := handle(s.(sequence := packets[0].sequenceId + 1), packets[0].payload);
      var tail := packets[1..];
      RunLeavesSuffix(e.session, tail, handle);
      var left := Run(e.session, tail, handle).left;
      assert tail[|tail| - |left|..] == packets[|packets| - |left|..];
    }
  }

  lemma SuffixFramable(a: seq<Framer.Packet>, b: seq<Framer.Packet>)
    requires Framer.AllFramable(b) && IsSuffix(a, b)
    ensures Framer.AllFramable(a)
  {
    var k := |b| - |a|;
    forall i | 0 <= i < |a|
      ensures Framer.Framable(a[i].payload)
    {
      assert a[i] == b[k + i];
    }
  }

  lemma RunUnfold(s: Session, first: Framer.Packet, rest: seq<Framer.Packet>, handle: Handler)
    requires s.Dispatching()
    ensures var e := handle(s.(sequence := first.sequenceId + 1), first.payload);
      var more := Run(e.session, rest, handle);
      Run(s, [first] + rest, handle) == Ran(more.session, e.out + more.out, more.left)
  {
    assert ([first] + rest)[0] == first;
    assert ([first] + rest)[1..] == rest;
  }

  lemma DrainUnfoldClosed(c: Conn, handle: Handler, cut: Framer.Cut, e: Emit)
    requires c.session.Dispatching() && Framer.Next(c.pending) == Some(cut)
    requires e == handle(c.session.(sequence := cut.packet.sequenceId + 1), cut.packet.payload)
    requires e.session.Closed()
    ensures Drain(c, handle) == Step(Conn(e.session, []), e.out)
  {
  }

  lemma DrainUnfoldOpen(c: Conn, handle: Handler, cut: Framer.Cut, e: Emit)
    requires c.session.Dispatching() && Framer.Next(c.pending) == Some(cut)
    requires e == handle(c.session.(sequence := cut.packet.sequenceId + 1), cut.packet.payload)
    requires !e.session.Closed()
    ensures Drain(c, handle).conn == Drain(Conn(e.session, cut.rest), handle).conn
    ensures Drain(c, handle).out == e.out + Drain(Conn(e.session, cut.rest), handle).out
  {
  }

  /** What the engine leaves buffered after a drain: nothing once closed,
      otherwise the frames of the packets it did not dispatch followed by the
      framer's incomplete tail. */
  function Leftover(ran: Ran, tail: bytes): bytes
    requires Framer.AllFramable(ran.left)
  {
    if ran.session.Closed() then [] else Framer.Join(ran.left) + tail
  }

  /** The engine dispatches exactly the packets the framer cuts from the
      buffer, in order, and keeps exactly the bytes it did not dispatch. */
  lemma {:induction false} DrainDispatchesSplit(c: Conn, handle: Handler)
    requires !c.Closed()
    ensures var split := Framer.Split(c.pending);
      var ran := Run(c.session, split.0, handle);
      && Framer.AllFramable(ran.left)
      && Drain(c, handle) == Step(Conn(ran.session, Leftover(ran, split.1)), ran.out)
    decreases |c.pending|, 1
  {
    var split := Framer.Split(c.pending);
    var ran := Run(c.session, split.0, handle);
    RunLeavesSuffix(c.session, split.0, handle);
    SuffixFramable(ran.left, split.0);
    if !c.session.Dispatching() {
      Framer.SplitConserves(c.pending);
      assert Drain(c, handle) == Step(c, []);
      assert ran == Ran(c.session, [], split.0);
    } else if !Framer.Complete(c.pending) {
      assert Drain(c, handle) == Step(c, []);
      assert split == ([], c.pending);
      assert Framer.Join([]) + c.pending == c.pending;
    } else {
      DrainDispatchesFirst(c, handle);
    }
  }

  /** The step of DrainDispatchesSplit: the first complete packet. */
  lemma {:induction false} DrainDispatchesFirst(c: Conn, handle: Handler)
    requires c.session.Dispatching() && Framer.Complete(c.pending)
    ensures var split := Framer.Split(c.pending);
      var ran := Run(c.session, split.0, handle);
      && Framer.AllFramable(ran.left)
      && Drain(c, handle) == Step(Conn(ran.session, Leftover(ran, split.1)), ran.out)
    decreases |c.pending|, 0
  {
    var split := Framer.Split(c.pending);
    var ran := Run(c.session, split.0, handle);
    RunLeavesSuffix(c.session, split.0, handle);
    SuffixFramable(ran.left, split.0);
    var cut := Framer.Next(c.pending).value;
    Framer.SplitUnfold(c.pending);
    var more := Framer.Split(cut.rest);
    assert split.0 == [cut.packet] + more.0 && split.1 == more.1;
    var e := handle(c.session.(sequence := cut.packet.sequenceId + 1), cut.packet.payload);
    if e.session.Closed() {
      FirstClosed(c, handle, cut, e, more.0, more.1);
    } else {
      DrainDispatchesSplit(Conn(e.session, cut.rest), handle);
      FirstOpen(c, handle, cut, e, more.0, more.1);
    }
  }

  /** The first packet closes the connection: the rest is dropped. */
  lemma FirstClosed(c: Conn, handle: Handler, cut: Framer.Cut, e: Emit,
                    packets: seq<Framer.Packet>, tail: bytes)
    requires c.session.Dispatching() && Framer.Next(c.pending) == Some(cut)
    requires e == handle(c.session.(sequence := cut.packet.sequenceId + 1), cut.packet.payload)
    requires e.session.Closed()
    requires Framer.AllFramable(Run(c.session, [cut.packet] + packets, handle).left)
    ensures var ran := Run(c.session, [cut.packet] + packets, handle);
      Drain(c, handle) == Step(Conn(ran.session, Leftover(ran, tail)), ran.out)
  {
    var ran := Run(c.session, [cut.packet] + packets, handle);
    RunUnfold(c.session, cut.packet, packets, handle);
    var inner := Run(e.session, packets, handle);
    assert inner == Ran(e.session, [], packets);
    assert ran == Ran(e.session, e.out + [], packets);
    assert e.out + [] == e.out;
    DrainUnfoldClosed(c, handle, cut, e);
  }

  /** The first packet leaves the connection open: the rest is drained. */
  lemma FirstOpen(c: Conn, handle: Handler, cut: Framer.Cut, e: Emit,
                  packets: seq<Framer.Packet>, tail: bytes)
    requires c.session.Dispatching() && Framer.Next(c.pending) == Some(cut)
    requires e == handle(c.session.(sequence := cut.packet.sequenceId + 1), cut.packet.payload)
    requires !e.session.Closed()
    requires var inner := Run(e.session, packets, handle);
      && Framer.AllFramable(inner.left)
      && Drain(Conn(e.session, cut.rest), handle) == Step(Conn(inner.session, Leftover(inner, tail)), inner.out)
    requires Framer.AllFramable(Run(c.session, [cut.packet] + packets, handle).left)
    ensures var ran := Run(c.session, [cut.packet] + packets, handle);
      Drain(c, handle) == Step(Conn(ran.session, Leftover(ran, tail)), ran.out)
  {
    var ran := Run(c.session, [cut.packet] + packets, handle);
    var inner := Run(e.session, packets, handle);
    RunUnfold(c.session, cut.packet, packets, handle);
    assert ran == Ran(inner.session, e.out + inner.out, inner.left);
    DrainUnfoldOpen(c, handle, cut, e);
    assert Leftover(ran, tail) == Leftover(inner, tail);
  }
}

=== FILE: engine_scenarios.dfy ===
/** The exchanges of a MySQL connection as the engine carries them out: the
    client hello starts authorization, an empty hello is answered with an
    error, a command packet is answered with the collaborator's replies
    numbered after the client's packet, and the authorization decision is
    answered with OK or with the failure report. */
module Scenarios {
  import opened Base
  import Framer
  import Handshake
  import opened Engine
  import EngineProperties

  /** The hello handler's request for a parsed hello. */
  function RequestOf(h: Handshake.ClientHello): AuthRequest {
    AuthRequest(h.clientFlags, h.maxPacketSize, h.username, h.database)
  }

  /** A buffer holding exactly one packet, framed with `sequenceId`, is
      dispatched once, with the counter set to `sequenceId + 1`, and nothing
      stays buffered. */
  lemma DrainSingle(c: Conn, sequenceId: byte, payload: bytes, handle: Handler)
    requires c.session.Dispatching() && Framer.Framable(payload)
    requires c.pending == Framer.Frame(sequenceId, payload)
    ensures var e := handle(c.session.(sequence := sequenceId + 1), payload);
      Drain(c, handle) == Step(Conn(e.session, []), e.out)
  {
    var e := handle(c.session.(sequence := sequenceId + 1), payload);
    Framer.NextOfFrame(sequenceId, payload, []);
    assert Framer.Frame(sequenceId, payload) + [] == c.pending;
    var cut := Framer.Cut(Framer.Packet(sequenceId, payload), []);
    if e.session.Closed() {
      EngineProperties.DrainUnfoldClosed(c, handle, cut, e);
    } else {
      EngineProperties.DrainUnfoldOpen(c, handle, cut, e);
      assert !Framer.Complete([]);
      assert Drain(Conn(e.session, []), handle) == Step(Conn(e.session, []), []);
      assert e.out + [] == e.out;
    }
  }

  /** One complete packet received by an idle connection is handed to the
      phase's handler with the counter set to its sequence number plus one. */
  lemma ReceiveSingle(s: Session, sequenceId: byte, payload: bytes, respond: Collaborator)
    requires s.Dispatching() && Framer.Framable(payload)
    ensures var e := Dispatch(s.(sequence := sequenceId + 1), payload, respond);
      Receive(Conn(s, []), Framer.Frame(sequenceId, payload), respond) == Step(Conn(e.session, []), e.out)
  {
    var c := Conn(s, [] + Framer.Frame(sequenceId, payload));
    assert c.pending == Framer.Frame(sequenceId, payload);
    HandleDispatches(respond, s.(sequence := sequenceId + 1), payload);
    DrainSingle(c, sequenceId, payload, Handle(respond));
  }

  /** A complete client hello in the greeting phase: the handler is removed,
      the charset is kept, the scramble is kept when one was sent, nothing is
      written, and authorization is requested with the hello's fields. */
  lemma HelloStartsAuthorization(s: Session, sequenceId: byte, h: Handshake.ClientHello, respond: Collaborator)
    requires s.phase.Greeting? && Handshake.WellFormed(h)
    requires Framer.Framable(Handshake.EncodeHello(h))
    ensures Receive(Conn(s, []), Framer.Frame(sequenceId, Handshake.EncodeHello(h)), respond)
      == Step(Conn(Session(
           Authorizing(RequestOf(h)),
           sequenceId + 1,
           Some(h.charset),
           if h.scramble.Some? then h.scramble else s.scramble), []), [])
  {
    var p := Handshake.EncodeHello(h);
    Handshake.ParseEncodeHello(h);
    ReceiveSingle(s, sequenceId, p, respond);
  }

  /** An empty hello is answered with the error packet, numbered after the
      client's packet, and the hello handler stays installed. */
  lemma ZeroLengthHelloAnswered(s: Session, sequenceId: byte, respond: Collaborator)
    requires s.phase.Greeting?
    ensures var r := Receive(Conn(s, []), Framer.Frame(sequenceId, []), respond);
      && r.conn == Conn(s.(sequence := sequenceId + 2), [])
      && |r.out| == 1
      && Framer.Split(r.out[0]) == ([Framer.Packet((sequenceId + 1) % 256, ErrorReply(ZeroLengthHello))], [])
  {
    assert Handshake.ParseHello([]) == Failure(Handshake.ZeroLength);
    ReceiveSingle(s, sequenceId, [], respond);
  }

  /** A command packet is split into command byte and extra part, handed to
      the collaborator, and its send calls are carried out with the counter
      starting after the client's sequence number; nothing stays buffered.
      With every response sendable the i-th frame is numbered
      `sequenceId + 1 + i` modulo 256 (Perform and SendAll). */
  lemma CommandAnswered(s: Session, sequenceId: byte, request: Request, respond: Collaborator)
    requires s.phase.Command? && Canonical(request)
    requires Framer.Framable(CommandPacket(request))
    ensures var e := Perform(s.(sequence := sequenceId + 1), respond(request));
      Receive(Conn(s, []), Framer.Frame(sequenceId, CommandPacket(request)), respond) == Step(Conn(e.session, []), e.out)
  {
    var p := CommandPacket(request);
    var t := s.(sequence := sequenceId + 1);
    SplitCommandPacket(request);
    assert Dispatch(t, p, respond) == Perform(t, respond(request));
    ReceiveSingle(s, sequenceId, p, respond);
  }

  /** An empty packet in the command phase has no command byte: the read
      throws, nothing is written and the connection is lost, together with
      whatever followed the packet. */
  lemma EmptyCommandCrashes(s: Session, sequenceId: byte, rest: bytes, respond: Collaborator)
    requires s.phase.Command?
    ensures Receive(Conn(s, []), Framer.Frame(sequenceId, []) + rest, respond)
      == Step(Conn(s.(phase := Crashed, sequence := sequenceId + 1), []), [])
  {
    var c := Conn(s, [] + (Framer.Frame(sequenceId, []) + rest));
    assert c.pending == Framer.Frame(sequenceId, []) + rest;
    var t := s.(sequence := sequenceId + 1);
    var e := Emit(t.(phase := Crashed), []);
    HandleDispatches(respond, t, []);
    Framer.NextOfFrame(sequenceId, [], rest);
    EngineProperties.DrainUnfoldClosed(c, Handle(respond), Framer.Cut(Framer.Packet(sequenceId, []), rest), e);
  }

  /** While authorization is pending no handler is installed: received bytes
      are kept, complete packets included, and nothing is written. */
  lemma AuthorizingBuffers(c: Conn, chunk: bytes, respond: Collaborator)
    requires c.session.phase.Authorizing?
    ensures Receive(c, chunk, respond) == Step(Conn(c.session, c.pending + chunk), [])
  {
    var grown := Conn(c.session, c.pending + chunk);
    assert !grown.session.Dispatching();
  }

  /** A positive decision with no packet waiting: the command handler is
      installed and OK goes out with the current counter. */
  lemma AuthorizeAcceptedIdle(c: Conn, respond: Collaborator)
    requires c.session.phase.Authorizing? && !Framer.Complete(c.pending)
    ensures var r := Authorize(c, true, respond);
      && r.conn == Conn(c.session.(phase := Command, sequence := c.session.sequence + 1), c.pending)
      && |r.out| == 1
      && Framer.Split(r.out[0]) == ([Framer.Packet(c.session.sequence % 256, OkReply())], [])
  {
    var resumed := Conn(c.session.(phase := Command), c.pending);
    assert Framer.Next(resumed.pending).None?;
    assert Drain(resumed, Handle(respond)) == Step(resumed, []);
    assert [] + Send(resumed.session, OkReply()).out == Send(resumed.session, OkReply()).out;
  }

  /** A negative decision: the failure is reported with the current counter
      and the connection ends, dropping what was buffered. */
  lemma AuthorizeRefused(c: Conn, respond: Collaborator)
    requires c.session.phase.Authorizing?
    ensures var r := Authorize(c, false, respond);
      && r.conn == Conn(c.session.(phase := Rejected, sequence := c.session.sequence + 1), [])
      && |r.out| == 1
      && Framer.Split(r.out[0]) == ([Framer.Packet(c.session.sequence % 256, ErrorReply(AuthorizationFailure))], [])
  {
    var r := Authorize(c, false, respond);
    assert r == Refuse(c.session, []);
  }

  /** A command that arrived while authorization was pending is answered
      when the decision is positive, before the OK: the OK is numbered after
      the command's replies. When answering it throws, the failure report
      follows whatever was sent and the connection ends. */
  lemma BufferedCommandAnsweredBeforeOk(c: Conn, sequenceId: byte, request: Request, respond: Collaborator)
    requires c.session.phase.Authorizing? && Canonical(request)
    requires Framer.Framable(CommandPacket(request))
    requires c.pending == Framer.Frame(sequenceId, CommandPacket(request))
    ensures var e := Perform(c.session.(phase := Command, sequence := sequenceId + 1), respond(request));
      var r := Authorize(c, true, respond);
      && (e.session.phase.Command? ==>
            r == Step(Conn(e.session.(sequence := e.session.sequence + 1), []),
                      e.out + [Framer.Frame(e.session.sequence, OkReply())]))
      && (e.session.phase.Crashed? ==> r == Refuse(e.session, e.out))
  {
    var resumed := Conn(c.session.(phase := Command), c.pending);
    var p := CommandPacket(request);
    var t := resumed.session.(sequence := sequenceId + 1);
    SplitCommandPacket(request);
    var e := Perform(t, respond(request));
    assert Dispatch(t, p, respond) == e;
    HandleDispatches(respond, t, p);
    DrainSingle(resumed, sequenceId, p, Handle(respond));
    var d := Drain(resumed, Handle(respond));
    assert d == Step(Conn(e.session, []), e.out);
    DrainKeepsCommand(resumed, respond);
    assert Authorize(c, true, respond) == Admit(d);
  }
}

=== FILE: framer.dfy ===
/** Packet framing: writeHeader for outgoing packets, and the incoming
    reassembly of readPackets and gatherIncoming in src/index.js.

    On the wire a packet is a three-byte little-endian payload length, a
    one-byte sequence number, then the payload. */
module Framer {
  import opened Base
  import LittleEndian

  const HeaderSize: nat := 4

  /** A payload length must fit the three-byte field; writeUIntLE(len - 4, 0, 3)
      throws otherwise. */
  const MaxPayload: nat := 0x100_0000

  datatype Packet = Packet(sequenceId: byte, payload: bytes)

  /** One packet peeled off the front of a buffer, and the bytes after it. */
  datatype Cut = Cut(packet: Packet, rest: bytes)

  predicate Framable(payload: bytes) {
    |payload| < MaxPayload
  }

  predicate AllFramable(packets: seq<Packet>) {
    forall i | 0 <= i < |packets| :: Framable(packets[i].payload)
  }

  /** writeHeader: the payload length in bytes 0-2, the sequence counter
      modulo 256 in byte 3, the payload after them. */
  function Frame(sequence: nat, payload: bytes): (r: bytes)
    requires Framable(payload)
    ensures |r| == HeaderSize + |payload|
  {
    LittleEndian.Widths();
    LittleEndian.Encode(|payload|, 3) + [sequence % 256] + payload
  }

  /** What a reader of the header finds: the payload's length, the sequence
      number modulo 256, and the payload itself after the four header bytes. */
  lemma FrameFields(sequence: nat, payload: bytes)
    requires Framable(payload)
    ensures LittleEndian.Decode(Frame(sequence, payload)[..3]) == |payload|
    ensures Frame(sequence, payload)[3] == sequence % 256
    ensures Frame(sequence, payload)[HeaderSize..] == payload
  {
    LittleEndian.Widths();
    LittleEndian.DecodeEncode(|payload|, 3);
    var r := Frame(sequence, payload);
    assert r[..3] == LittleEndian.Encode(|payload|, 3);
  }

  function DeclaredLength(buf: bytes): nat
    requires |buf| >= 3
  {
    LittleEndian.Decode(buf[..3])
  }

  /** The buffer starts with a whole packet: the header and all the payload
      bytes it announces. */
  predicate Complete(buf: bytes) {
    |buf| >= HeaderSize && |buf| >= HeaderSize + DeclaredLength(buf)
  }

  /** One pass of the readPackets loop: nothing while the front packet is
      partial, otherwise that packet and the bytes after it. */
  function Next(buf: bytes): (r: Option<Cut>)
    ensures r.Some? <==> Complete(buf)
    ensures r.Some? ==> Framable(r.value.packet.payload) && |r.value.rest| < |buf|
  {
    if !Complete(buf) then None
    else
      var n := DeclaredLength(buf);
      Some(Cut(Packet(buf[3], buf[HeaderSize..HeaderSize + n]), buf[HeaderSize + n..]))
  }

  /** The packet Next peels off is exactly the front frame: its header
      carries the payload's length and the packet's sequence number. */
  lemma NextIsFrame(buf: bytes)
    requires Complete(buf)
    ensures Frame(Next(buf).value.packet.sequenceId, Next(buf).value.packet.payload) + Next(buf).value.rest == buf
  {
    var n := DeclaredLength(buf);
    var p := Next(buf).value.packet;
    LittleEndian.Widths();
    LittleEndian.EncodeDecode(buf[..3]);
    assert Frame(p.sequenceId, p.payload) == buf[..HeaderSize + n];
  }

  /** A frame followed by anything yields that frame's packet first. */
  lemma NextOfFrame(sequenceId: byte, payload: bytes, rest: bytes)
    requires Framable(payload)
    ensures Next(Frame(sequenceId, payload) + rest) == Some(Cut(Packet(sequenceId, payload), rest))
  {
    var f := Frame(sequenceId, payload);
    FrameFields(sequenceId, payload);
    var buf := f + rest;
    assert buf[..3] == f[..3];
    assert buf[HeaderSize..HeaderSize + |payload|] == payload;
    assert buf[HeaderSize + |payload|..] == rest;
  }

  /** Bytes arriving later do not change a packet already complete. */
  lemma NextAppend(buf: bytes, more: bytes)
    requires Complete(buf)
    ensures Next(buf + more) == Some(Cut(Next(buf).value.packet, Next(buf).value.rest + more))
  {
    var c := Next(buf).value;
    var f := Frame(c.packet.sequenceId, c.packet.payload);
    NextIsFrame(buf);
    assert buf + more == f + (c.rest + more);
    NextOfFrame(c.packet.sequenceId, c.packet.payload, c.rest + more);
  }

  /** The wire form of a list of packets. */
  function Join(packets: seq<Packet>): bytes
    requires AllFramable(packets)
  {
    if |packets| == 0 then []
    else Frame(packets[0].sequenceId, packets[0].payload) + Join(packets[1..])
  }

  /** readPackets as a pure function: every complete packet in order, and
      the unconsumed tail, which holds no complete packet. */
  function Split(buf: bytes): (r: (seq<Packet>, bytes))
    ensures AllFramable(r.0)
    ensures !Complete(r.1)
    ensures |r.1| <= |buf|
    decreases |buf|
  {
    if !Complete(buf) then ([], buf)
    else
      var cut := Next(buf).value;
      var more := Split(cut.rest);
      ([cut.packet] + more.0, more.1)
  }

  /** Nothing is lost or invented: the frames of the dispatched packets,
      each with exactly its declared length, followed by the tail, are the
      input buffer. */
  lemma {:induction false} SplitConserves(buf: bytes)
    ensures Join(Split(buf).0) + Split(buf).1 == buf
    decreases |buf|
  {
    if Complete(buf) {
      var cut := Next(buf).value;
      var more := Split(cut.rest);
      var f := Frame(cut.packet.sequenceId, cut.packet.payload);
      var j := Join(more.0);
      assert Join(Split(buf).0) + Split(buf).1 == f + j + more.1 by {
        SplitUnfold(buf);
        JoinCons(cut.packet, more.0);
      }
      assert f + (j + more.1) == buf by {
        SplitConserves(cut.rest);
        NextIsFrame(buf);
      }
      ConcatAssoc(f, j, more.1);
    }
  }

  lemma JoinCons(p: Packet, packets: seq<Packet>)
    requires Framable(p.payload) && AllFramable(packets)
    ensures AllFramable([p] + packets)
    ensures Join([p] + packets) == Frame(p.sequenceId, p.payload) + Join(packets)
  {
    assert ([p] + packets)[1..] == packets;
  }

  /** Framing is undone exactly: the wire form of any packets followed by an
      incomplete tail splits back into those packets and that tail. */
  lemma {:induction false} SplitJoin(packets: seq<Packet>, tail: bytes)
    requires AllFramable(packets)
    requires !Complete(tail)
    ensures Split(Join(packets) + tail) == (packets, tail)
  {
    if |packets| > 0 {
      var p := packets[0];
      var after := Join(packets[1..]) + tail;
      assert Join(packets) + tail == Frame(p.sequenceId, p.payload) + after;
      NextOfFrame(p.sequenceId, p.payload, after);
      SplitJoin(packets[1..], tail);
      assert [p] + packets[1..] == packets;
    } else {
      assert Join(packets) + tail == tail;
    }
  }

  /** writeHeader undone: a reader of one frame sees exactly one packet,
      carrying the sequence counter modulo 256 and the payload, and nothing
      left over. */
  lemma SplitFrame(sequence: nat, payload: bytes)
    requires Framable(payload)
    ensures Split(Frame(sequence, payload)) == ([Packet(sequence % 256, payload)], [])
  {
    var f := Frame(sequence, payload);
    NextOfFrame(sequence % 256, payload, []);
    assert Frame(sequence % 256, payload) == f;
    assert f + [] == f;
    SplitUnfold(f);
    assert Split([]) == ([], []);
    assert [Packet(sequence % 256, payload)] + [] == [Packet(sequence % 256, payload)];
  }

  /** A zero-length payload is still a packet and is still dispatched. */
  lemma EmptyPayloadIsDispatched(sequenceId: byte, rest: bytes)
    ensures Split(Frame(sequenceId, []) + rest).0 == [Packet(sequenceId, [])] + Split(rest).0
  {
    NextOfFrame(sequenceId, [], rest);
  }

  /** Splitting a buffer that grows at the end: first the packets of the
      original buffer, then those of its tail with the new bytes. */
  lemma {:induction false} SplitAppend(buf: bytes, more: bytes)
    ensures Split(buf + more).0 == Split(buf).0 + Split(Split(buf).1 + more).0
    ensures Split(buf + more).1 == Split(Split(buf).1 + more).1
    decreases |buf|
  {
    if Complete(buf) {
      var cut := Next(buf).value;
      NextAppend(buf, more);
      SplitUnfold(buf);
      SplitUnfold(buf + more);
      SplitAppend(cut.rest, more);
    }
  }

  lemma SplitUnfold(buf: bytes)
    requires Complete(buf)
    ensures Split(buf).0 == [Next(buf).value.packet] + Split(Next(buf).value.rest).0
    ensures Split(buf).1 == Split(Next(buf).value.rest).1
  {
  }

  /** gatherIncoming over a sequence of deliveries: each chunk is appended to
      the pending bytes, the complete packets are dispatched, and only the
      tail is kept for the next chunk. */
  function Reassemble(pending: bytes, chunks: seq<bytes>): (seq<Packet>, bytes)
    decreases |chunks|
  {
    if |chunks| == 0 then ([], pending)
    else
      var now := Split(pending + chunks[0]);
      var later := Reassemble(now.1, chunks[1..]);
      (now.0 + later.0, later.1)
  }

  /** Chunk boundaries do not matter: delivering a stream in any chunks
      dispatches the same packets and keeps the same tail as delivering it
      all at once. */
  lemma {:induction false} ChunkIndependence(pending: bytes, chunks: seq<bytes>)
    requires !Complete(pending)
    decreases |chunks|
    ensures Reassemble(pending, chunks) == Split(pending + Concat(chunks))
  {
    if |chunks| > 0 {
      var now := Split(pending + chunks[0]);
      ChunkIndependence(now.1, chunks[1..]);
      SplitAppend(pending + chunks[0], Concat(chunks[1..]));
      assert pending + Concat(chunks) == pending + chunks[0] + Concat(chunks[1..]);
    } else {
      assert pending + Concat(chunks) == pending;
      SplitJoin([], pending);
    }
  }
}

=== FILE: handshake.dfy ===
/** The client hello (HandshakeResponse41) as helloPacketHandler in
    src/index.js reads it, and the layout a client writes it in. */
module Handshake {
  import opened Base
  import Buffers

  /** The fields the parser takes from the client hello. Flags and maximum
      packet size are handed on as raw four-byte slices, as in the source. */
  datatype ClientHello = ClientHello(
    clientFlags: bytes,
    maxPacketSize: bytes,
    charset: byte,
    username: bytes,
    scramble: Option<bytes>,
    database: Option<bytes>)

  /** ZeroLength is answered with an ERR packet. OutOfRange is the RangeError
      readUInt8 throws when the charset byte or the scramble-length byte lies
      past the end of the packet. */
  datatype HelloError = ZeroLength | OutOfRange

  const CharsetOffset: nat := 8
  const UsernameOffset: nat := 32

  /** helloPacketHandler's parse: flags at 0, maximum packet size at 4,
      charset at 8, 23 filler bytes, the username from 32 to the first NUL,
      a scramble-length byte and that many scramble bytes (only when the
      length is not zero), then a database name when a further NUL exists.
      When the username has no NUL, `ptr` falls back to 0 and the scramble
      length is read from byte 0; that is kept here. When the username's NUL
      is the last byte, the scramble-length byte lies past the end and
      readUInt8 throws. */
  function ParseHello(p: bytes): (r: Result<ClientHello, HelloError>)
    ensures r == Failure(ZeroLength) <==> |p| == 0
    ensures 0 < |p| <= CharsetOffset ==> r == Failure(OutOfRange)
    ensures CharsetOffset < |p| ==> (r.Success? <==> Buffers.IndexOf(p, 0, UsernameOffset) + 1 < |p|)
    ensures r.Success? ==> r.value.clientFlags == p[..4] && r.value.maxPacketSize == p[4..8]
    ensures r.Success? ==> r.value.charset == p[CharsetOffset]
    ensures r.Success? ==> NoNul(r.value.username)
    ensures r.Success? && r.value.username != [] ==>
              && UsernameOffset + |r.value.username| < |p|
              && p[UsernameOffset..UsernameOffset + |r.value.username|] == r.value.username
              && p[UsernameOffset + |r.value.username|] == 0
    ensures r.Success? && Buffers.IndexOf(p, 0, UsernameOffset) >= 0 ==>
              r.value.username == p[UsernameOffset..Buffers.IndexOf(p, 0, UsernameOffset)]
    ensures r.Success? && Buffers.IndexOf(p, 0, UsernameOffset) < 0 ==> r.value.username == []
    ensures r.Success? && r.value.scramble.Some? ==> |r.value.scramble.value| < 256
    ensures r.Success? && r.value.database.Some? ==> NoNul(r.value.database.value)
  {
    if |p| == 0 then Failure(ZeroLength)
    else if |p| <= CharsetOffset then Failure(OutOfRange)
    else ReadFromUsername(p, Buffers.IndexOf(p, 0, UsernameOffset))
  }

  /** The parse once the username's terminator was searched for: `userEnd`
      is its position, or -1 when there is none. */
  function ReadFromUsername(p: bytes, userEnd: int): (r: Result<ClientHello, HelloError>)
    requires CharsetOffset < |p|
    requires userEnd == -1 || (UsernameOffset <= userEnd < |p| && p[userEnd] == 0)
    requires userEnd != -1 ==> forall k | UsernameOffset <= k < userEnd :: p[k] != 0
    ensures r.Success? <==> userEnd + 1 < |p|
    ensures r.Failure? ==> r.error == OutOfRange
    ensures r.Success? ==> NoNul(r.value.username)
    ensures r.Success? && r.value.username != [] ==> userEnd == UsernameOffset + |r.value.username|
    ensures r.Success? && userEnd >= 0 ==>
              && UsernameOffset + |r.value.username| == userEnd
              && r.value.username == p[UsernameOffset..userEnd]
    ensures r.Success? && userEnd < 0 ==> r.value.username == []
  {
    var username := if userEnd < 0 then [] else p[UsernameOffset..userEnd];
    var lengthAt := userEnd + 1;
    if lengthAt >= |p| then Failure(OutOfRange)
    else
      var scrambleLength := p[lengthAt];
      var scramble := ReadScramble(p, lengthAt + 1, scrambleLength);
      var database := ReadDatabase(p, lengthAt + 1 + scrambleLength);
      Success(ClientHello(p[..4], p[4..8], p[CharsetOffset], username, scramble, database))
  }

  /** The scramble: only when its length byte is not zero, and a slice, so
      shorter than the length byte says when the packet ends early. */
  function ReadScramble(p: bytes, at: nat, length: byte): (r: Option<bytes>)
    ensures r.Some? <==> length > 0
    ensures r.Some? ==> |r.value| <= length
    ensures r.Some? && at + length <= |p| ==> r.value == p[at..at + length]
  {
    if length > 0 then Some(Buffers.Slice(p, at, at + length)) else None
  }

  /** The database name: the bytes up to the next NUL, when there is one. */
  function ReadDatabase(p: bytes, at: nat): (r: Option<bytes>)
    ensures r.None? <==> forall k | at <= k < |p| :: p[k] != 0
    ensures r.Some? ==> NoNul(r.value) && at + |r.value| < |p| && p[at..at + |r.value|] == r.value
    ensures r.Some? ==> p[at + |r.value|] == 0
  {
    var end := Buffers.IndexOf(p, 0, at);
    if end < 0 then None else Some(p[at..end])
  }

  /** A client hello a conforming client can send: four-byte flag and size
      fields, a username and database without NUL bytes, and a scramble of
      1 to 255 bytes when there is one. */
  predicate WellFormed(h: ClientHello) {
    && |h.clientFlags| == 4
    && |h.maxPacketSize| == 4
    && NoNul(h.username)
    && (h.scramble.Some? ==> 0 < |h.scramble.value| < 256)
    && (h.database.Some? ==> NoNul(h.database.value))
  }

  function ScrambleField(scramble: Option<bytes>): bytes
    requires scramble.Some? ==> |scramble.value| < 256
  {
    match scramble
    case None => [0]
    case Some(s) => [|s|] + s
  }

  function DatabaseField(database: Option<bytes>): bytes {
    match database
    case None => []
    case Some(d) => d + [0]
  }

  /** The client side of the layout the parser reads. */
  function EncodeHello(h: ClientHello): bytes
    requires WellFormed(h)
  {
    h.clientFlags + h.maxPacketSize + [h.charset] + Zeros(23) + h.username + [0]
      + ScrambleField(h.scramble) + DatabaseField(h.database)
  }

  /** The parser recovers every field of a well-formed client hello. */
  lemma ParseEncodeHello(h: ClientHello)
    requires WellFormed(h)
    ensures ParseHello(EncodeHello(h)) == Success(h)
  {
    HelloLayout(h);
    ParseLaidOut(EncodeHello(h), h);
  }

  /** Any packet with the fields of `h` where the parser looks for them
      parses to `h`. */
  lemma ParseLaidOut(p: bytes, h: ClientHello)
    requires WellFormed(h)
    requires UsernameOffset + |h.username| + 1 < |p|
    requires p[..4] == h.clientFlags && p[4..8] == h.maxPacketSize && p[CharsetOffset] == h.charset
    requires p[UsernameOffset..UsernameOffset + |h.username|] == h.username
    requires Buffers.IndexOf(p, 0, UsernameOffset) == UsernameOffset + |h.username|
    requires p[UsernameOffset + |h.username| + 1..] == ScrambleField(h.scramble) + DatabaseField(h.database)
    ensures ParseHello(p) == Success(h)
  {
    var userEnd := UsernameOffset + |h.username|;
    var lengthAt := userEnd + 1;
    ReadBackScramble(p, lengthAt, h.scramble, DatabaseField(h.database));
    var databaseAt := lengthAt + 1 + p[lengthAt];
    ReadBackDatabase(p, databaseAt, h.database);
    ParseHelloFound(p, userEnd, databaseAt);
  }

  /** Where the fields of an encoded hello sit. */
  lemma HelloLayout(h: ClientHello)
    requires WellFormed(h)
    ensures var p := EncodeHello(h);
      && UsernameOffset + |h.username| + 1 < |p|
      && p[..4] == h.clientFlags && p[4..8] == h.maxPacketSize && p[CharsetOffset] == h.charset
      && p[UsernameOffset..UsernameOffset + |h.username|] == h.username
      && Buffers.IndexOf(p, 0, UsernameOffset) == UsernameOffset + |h.username|
      && p[UsernameOffset + |h.username| + 1..] == ScrambleField(h.scramble) + DatabaseField(h.database)
  {
    var fixed := h.clientFlags + h.maxPacketSize + [h.charset] + Zeros(23);
    var tail := ScrambleField(h.scramble) + DatabaseField(h.database);
    HelloRegroup(fixed, h.username, ScrambleField(h.scramble), DatabaseField(h.database));
    FixedPart(h.clientFlags, h.maxPacketSize, h.charset, h.username + ([0] + tail));
    UsernameRun(fixed, h.username, tail);
  }

  lemma HelloRegroup(fixed: bytes, u: bytes, sf: bytes, df: bytes)
    ensures fixed + u + [0] + sf + df == fixed + (u + ([0] + (sf + df)))
  {
    ConcatAssoc(fixed + u + [0], sf, df);
    ConcatAssoc(fixed + u, [0], sf + df);
    ConcatAssoc(fixed, u, [0] + (sf + df));
  }

  /** The fixed 32-byte front: flags, maximum packet size, charset, filler. */
  lemma FixedPart(flags: bytes, maxPacketSize: bytes, charset: byte, rest: bytes)
    requires |flags| == 4 && |maxPacketSize| == 4
    ensures var p := flags + maxPacketSize + [charset] + Zeros(23) + rest;
      && p[..4] == flags && p[4..8] == maxPacketSize && p[CharsetOffset] == charset
  {
    var fixed := flags + maxPacketSize + [charset] + Zeros(23);
    TakePrefix(fixed, rest);
    assert fixed[..4] == flags;
    assert fixed[4..8] == maxPacketSize;
  }

  /** After the 32-byte front, the username runs up to its NUL. */
  lemma UsernameRun(fixed: bytes, u: bytes, tail: bytes)
    requires |fixed| == UsernameOffset
    requires NoNul(u)
    ensures var p := fixed + (u + ([0] + tail));
      && UsernameOffset + |u| < |p|
      && p[UsernameOffset..UsernameOffset + |u|] == u
      && Buffers.IndexOf(p, 0, UsernameOffset) == UsernameOffset + |u|
      && p[UsernameOffset + |u| + 1..] == tail
  {
    var after := u + ([0] + tail);
    var p := fixed + after;
    assert p[UsernameOffset..] == after by {
      DropPrefix(fixed, after);
    }
    assert p[UsernameOffset..UsernameOffset + |u|] == u by {
      TakePrefix(u, [0] + tail);
    }
    Buffers.IndexOfAfterRun(p, 0, UsernameOffset, |u|);
    assert p[UsernameOffset + |u| + 1..] == tail by {
      DropPrefix(u + [0], tail);
      ConcatAssoc(u, [0], tail);
    }
  }

  /** The successful parse, spelled out once the username's NUL is found. */
  lemma ParseHelloFound(p: bytes, userEnd: nat, databaseAt: nat)
    requires CharsetOffset < |p|
    requires Buffers.IndexOf(p, 0, UsernameOffset) == userEnd
    requires userEnd + 1 < |p|
    requires databaseAt == userEnd + 2 + p[userEnd + 1]
    ensures var lengthAt := userEnd + 1;
      ParseHello(p) == Success(ClientHello(
        p[..4], p[4..8], p[CharsetOffset], p[UsernameOffset..userEnd],
        ReadScramble(p, lengthAt + 1, p[lengthAt]),
        ReadDatabase(p, databaseAt)))
  {
    ParseHelloSearched(p, userEnd);
    ReadFromFound(p, userEnd, databaseAt);
  }

  lemma ParseHelloSearched(p: bytes, userEnd: int)
    requires CharsetOffset < |p|
    requires Buffers.IndexOf(p, 0, UsernameOffset) == userEnd
    ensures ParseHello(p) == ReadFromUsername(p, userEnd)
  {
  }

  lemma ReadFromFound(p: bytes, userEnd: nat, databaseAt: nat)
    requires UsernameOffset <= userEnd && userEnd + 1 < |p| && p[userEnd] == 0
    requires forall k | UsernameOffset <= k < userEnd :: p[k] != 0
    requires databaseAt == userEnd + 2 + p[userEnd + 1]
    ensures var lengthAt := userEnd + 1;
      ReadFromUsername(p, userEnd) == Success(ClientHello(
        p[..4], p[4..8], p[CharsetOffset], p[UsernameOffset..userEnd],
        ReadScramble(p, lengthAt + 1, p[lengthAt]),
        ReadDatabase(p, databaseAt)))
  {
  }

  lemma ReadBackScramble(p: bytes, lengthAt: nat, scramble: Option<bytes>, rest: bytes)
    requires scramble.Some? ==> 0 < |scramble.value| < 256
    requires lengthAt <= |p|
    requires p[lengthAt..] == ScrambleField(scramble) + rest
    ensures lengthAt < |p| && p[lengthAt] as int + 1 == |ScrambleField(scramble)|
    ensures ReadScramble(p, lengthAt + 1, p[lengthAt]) == scramble
    ensures p[lengthAt + 1 + p[lengthAt]..] == rest
  {
    var sf := ScrambleField(scramble);
    assert p[lengthAt + |sf|..] == rest by {
      DropPrefix(sf, rest);
    }
    match scramble {
      case None =>
        assert p[lengthAt] == 0;
      case Some(s) =>
        assert p[lengthAt + 1..] == s + rest by {
          ConcatAssoc([|s|], s, rest);
          DropPrefix([|s|], s + rest);
        }
        assert p[lengthAt + 1..lengthAt + 1 + |s|] == s by {
          TakePrefix(s, rest);
        }
    }
  }

  lemma ReadBackDatabase(p: bytes, at: nat, database: Option<bytes>)
    requires database.Some? ==> NoNul(database.value)
    requires at <= |p|
    requires p[at..] == DatabaseField(database)
    ensures ReadDatabase(p, at) == database
  {
    match database {
      case None =>
        assert at == |p|;
      case Some(d) =>
        assert p[at..at + |d|] == d;
        Buffers.IndexOfAfterRun(p, 0, at, |d|);
    }
  }
}

=== FILE: length_coded.dfy ===
/** The protocol's length-coded integers and strings (writeLengthCodedBinary
    and writeLengthCodedString in src/index.js), with readers for both.

    The encoders come in two forms that differ only in the 0xFD branch:
    AsWritten is the source's own rule, whose 0xFD marker is followed by a
    four-byte field (writeUInt32LE); Standard is the protocol's rule, with a
    three-byte field. The engine writes the AsWritten form. */
module LengthCoded {
  import opened Base
  import LittleEndian

  /** Values from here on take the 0xFE branch, which the source cannot
      write: it calls writeUIntLE without a byte length and throws. */
  const Limit: nat := 0x100_0000

  const NullMarker: byte := 0xFB
  const Marker16: byte := 0xFC
  const Marker24: byte := 0xFD

  /** Which field follows the 0xFD marker. */
  datatype Form = AsWritten | Standard

  /** The width of the field after 0xFD: four bytes as written, three in the
      protocol. Either is wide enough for every value below Limit. */
  function Width24(form: Form): (w: nat)
    ensures w == 3 || w == 4
    ensures Limit <= LittleEndian.Pow256(w)
  {
    LittleEndian.Widths();
    if form.AsWritten? then 4 else 3
  }

  predicate Encodable(n: Option<nat>) {
    n.None? || n.value < Limit
  }

  predicate StringEncodable(s: Option<bytes>) {
    s.None? || |s.value| < Limit
  }

  predicate CellsEncodable(cells: seq<Option<bytes>>) {
    forall i | 0 <= i < |cells| :: StringEncodable(cells[i])
  }

  /** A value read from the front of a byte string, and what follows it. */
  datatype Decoded<+T> = Decoded(value: T, rest: bytes)

  /** writeLengthCodedBinary: null is 0xFB, values below 251 are one byte,
      then 0xFC with two bytes, then 0xFD with the form's field. */
  function EncodeInt(form: Form, n: Option<nat>): (r: bytes)
    requires Encodable(n)
    ensures n.None? ==> r == [NullMarker]
    ensures n.Some? && n.value < 251 ==> r == [n.value]
    ensures n.Some? && 251 <= n.value < 0x1_0000 ==>
              |r| == 3 && r[0] == Marker16 && LittleEndian.Decode(r[1..]) == n.value
    ensures n.Some? && 0x1_0000 <= n.value ==>
              |r| == 1 + Width24(form) && r[0] == Marker24 && LittleEndian.Decode(r[1..]) == n.value
  {
    LittleEndian.Widths();
    match n
    case None => [NullMarker]
    case Some(v) =>
      if v < 251 then [v]
      else if v < 0x1_0000 then
        LittleEndian.DecodeEncode(v, 2);
        [Marker16] + LittleEndian.Encode(v, 2)
      else
        LittleEndian.DecodeEncode(v, Width24(form));
        [Marker24] + LittleEndian.Encode(v, Width24(form))
  }

  /** A reader of length-coded integers in the given form. The eight-byte
      0xFE form is never written here and is not read. */
  function DecodeInt(form: Form, s: bytes): (r: Option<Decoded<Option<nat>>>)
    ensures r.Some? ==> |r.value.rest| < |s|
  {
    var w := Width24(form);
    if |s| == 0 then None
    else if s[0] < 251 then Some(Decoded(Some(s[0]), s[1..]))
    else if s[0] == NullMarker then Some(Decoded(None, s[1..]))
    else if s[0] == Marker16 && |s| >= 3 then Some(Decoded(Some(LittleEndian.Decode(s[1..3])), s[3..]))
    else if s[0] == Marker24 && |s| >= 1 + w then Some(Decoded(Some(LittleEndian.Decode(s[1..1 + w])), s[1 + w..]))
    else None
  }

  /** A reader of the same form recovers every encodable integer, or null,
      and leaves the bytes that followed. */
  lemma DecodeIntRoundTrip(form: Form, n: Option<nat>, rest: bytes)
    requires Encodable(n)
    ensures DecodeInt(form, EncodeInt(form, n) + rest) == Some(Decoded(n, rest))
  {
    var e := EncodeInt(form, n);
    assert (e + rest)[|e|..] == rest;
    assert (e + rest)[1..|e|] == e[1..];
  }

  /** The two forms differ only in the 0xFD branch. */
  lemma EncodersAgreeBelow65536(n: Option<nat>)
    requires n.None? || n.value < 0x1_0000
    ensures EncodeInt(AsWritten, n) == EncodeInt(Standard, n)
  {
  }

  /** A protocol reader given the source's 0xFD form gets the right number,
      but the fourth field byte, always zero, is left in front of whatever
      follows and is read as the start of the next field. */
  lemma ProtocolReaderMisreadsAsWritten(n: nat, rest: bytes)
    requires 0x1_0000 <= n < Limit
    ensures DecodeInt(Standard, EncodeInt(AsWritten, Some(n)) + rest) == Some(Decoded(Some(n), [0] + rest))
  {
    var wide := EncodeInt(AsWritten, Some(n));
    var narrow := EncodeInt(Standard, Some(n));
    assert wide == narrow + [0] by {
      LittleEndian.Widths();
      LittleEndian.EncodeWiden(n, 3);
      ConcatAssoc([Marker24], LittleEndian.Encode(n, 3), [0]);
    }
    assert wide + rest == narrow + ([0] + rest) by {
      ConcatAssoc(narrow, [0], rest);
    }
    DecodeIntRoundTrip(Standard, Some(n), [0] + rest);
  }

  /** writeLengthCodedString: the length-coded byte count, then exactly
      those bytes; null is the single byte 0x00, not 0xFB. */
  function EncodeString(form: Form, s: Option<bytes>): (r: bytes)
    requires StringEncodable(s)
    ensures s.None? ==> r == [0]
    ensures s.Some? ==> |r| == |EncodeInt(form, Some(|s.value|))| + |s.value|
    ensures s.Some? ==> r[..|r| - |s.value|] == EncodeInt(form, Some(|s.value|))
    ensures s.Some? ==> r[|r| - |s.value|..] == s.value
  {
    match s
    case None => [0]
    case Some(v) => EncodeInt(form, Some(|v|)) + v
  }

  /** A reader of length-coded strings; 0xFB reads as null. */
  function DecodeString(form: Form, s: bytes): (r: Option<Decoded<Option<bytes>>>)
    ensures r.Some? ==> |r.value.rest| < |s|
  {
    match DecodeInt(form, s)
    case None => None
    case Some(Decoded(None, rest)) => Some(Decoded(None, rest))
    case Some(Decoded(Some(n), rest)) =>
      if |rest| < n then None else Some(Decoded(Some(rest[..n]), rest[n..]))
  }

  /** A string reads back unchanged in either form; a null string reads
      back as empty. */
  lemma DecodeStringRoundTrip(form: Form, s: Option<bytes>, rest: bytes)
    requires StringEncodable(s)
    ensures DecodeString(form, EncodeString(form, s) + rest) == Some(Decoded(Some(s.GetOr([])), rest))
  {
    match s
    case None =>
      DecodeIntRoundTrip(form, Some(0), rest);
    case Some(v) =>
      var len := EncodeInt(form, Some(|v|));
      assert EncodeString(form, s) + rest == len + (v + rest);
      DecodeIntRoundTrip(form, Some(|v|), v + rest);
      assert (v + rest)[..|v|] == v;
      assert (v + rest)[|v|..] == rest;
  }

  /** A protocol reader given a string of 65536 bytes or more in the
      source's form reads a string that starts with a stray 0x00 and lacks
      the last byte, which is left to be read as the next field. */
  lemma ProtocolReaderMisreadsLongString(v: bytes, rest: bytes)
    requires 0x1_0000 <= |v| < Limit
    ensures DecodeString(Standard, EncodeString(AsWritten, Some(v)) + rest)
         == Some(Decoded(Some([0] + v[..|v| - 1]), [v[|v| - 1]] + rest))
  {
    var len := EncodeInt(AsWritten, Some(|v|));
    assert EncodeString(AsWritten, Some(v)) + rest == len + (v + rest);
    ProtocolReaderMisreadsAsWritten(|v|, v + rest);
    var after := [0] + (v + rest);
    assert after[..|v|] == [0] + v[..|v| - 1];
    assert after[|v|..] == [v[|v| - 1]] + rest;
  }

  /** A row cell: null is the marker 0xFB, a value is a length-coded string.
      A present cell, even an empty one, never starts with 0xFB, which is
      what keeps null apart from the empty string. */
  function EncodeCell(form: Form, c: Option<bytes>): (r: bytes)
    requires StringEncodable(c)
    ensures c.None? ==> r == [NullMarker]
    ensures c.Some? ==> r == EncodeString(form, c)
    ensures c.Some? ==> |r| > |c.value| && r[0] != NullMarker && r[|r| - |c.value|..] == c.value
  {
    match c
    case None => [NullMarker]
    case Some(_) => EncodeString(form, c)
  }

  /** A cell reads back exactly, and null stays distinct from empty. */
  lemma DecodeCellRoundTrip(form: Form, c: Option<bytes>, rest: bytes)
    requires StringEncodable(c)
    ensures DecodeString(form, EncodeCell(form, c) + rest) == Some(Decoded(c, rest))
  {
    if c.None? {
      DecodeIntRoundTrip(form, None, rest);
    } else {
      DecodeStringRoundTrip(form, c, rest);
    }
  }

  /** Cells written one after another, in order. */
  function EncodeCells(form: Form, cells: seq<Option<bytes>>): bytes
    requires CellsEncodable(cells)
  {
    if |cells| == 0 then [] else EncodeCell(form, cells[0]) + EncodeCells(form, cells[1..])
  }

  /** Reads `count` length-coded cells from the front of `s`. */
  function DecodeCells(form: Form, s: bytes, count: nat): (r: Option<Decoded<seq<Option<bytes>>>>)
    ensures r.Some? ==> |r.value.value| == count
  {
    if count == 0 then Some(Decoded([], s))
    else
      match DecodeString(form, s)
      case None => None
      case Some(first) =>
        match DecodeCells(form, first.rest, count - 1)
        case None => None
        case Some(others) => Some(Decoded([first.value] + others.value, others.rest))
  }

  /** Cells read back unchanged, null cells included. */
  lemma {:induction false} DecodeCellsRoundTrip(form: Form, cells: seq<Option<bytes>>, rest: bytes)
    requires CellsEncodable(cells)
    ensures DecodeCells(form, EncodeCells(form, cells) + rest, |cells|) == Some(Decoded(cells, rest))
  {
    if |cells| > 0 {
      var tail := EncodeCells(form, cells[1..]) + rest;
      assert DecodeString(form, EncodeCells(form, cells) + rest) == Some(Decoded(cells[0], tail)) by {
        ConcatAssoc(EncodeCell(form, cells[0]), EncodeCells(form, cells[1..]), rest);
        DecodeCellRoundTrip(form, cells[0], tail);
      }
      assert DecodeCells(form, tail, |cells| - 1) == Some(Decoded(cells[1..], rest)) by {
        DecodeCellsRoundTrip(form, cells[1..], rest);
      }
      assert [cells[0]] + cells[1..] == cells;
    } else {
      assert EncodeCells(form, cells) + rest == rest;
    }
  }
}

=== FILE: little_endian.dfy ===
/** Unsigned little-endian integers of a fixed byte width, the layout of
    Buffer.writeUIntLE / writeUInt16LE / writeUInt32LE and readUIntLE. */
module LittleEndian {
  import opened Base

  function Pow256(k: nat): (p: nat)
    ensures p >= 1
  {
    if k == 0 then 1 else 256 * Pow256(k - 1)
  }

  lemma Widths()
    ensures Pow256(1) == 0x100 && Pow256(2) == 0x1_0000
    ensures Pow256(3) == 0x100_0000 && Pow256(4) == 0x1_0000_0000
  {
  }

  /** `n` as `width` bytes, least significant first. */
  function Encode(n: nat, width: nat): (r: bytes)
    requires n < Pow256(width)
    ensures |r| == width
  {
    if width == 0 then []
    else
      assert n / 256 < Pow256(width - 1);
      [n % 256] + Encode(n / 256, width - 1)
  }

  /** The number a little-endian byte string denotes. */
  function Decode(s: bytes): (n: nat)
    ensures n < Pow256(|s|)
  {
    if |s| == 0 then 0 else s[0] + 256 * Decode(s[1..])
  }

  /** Reading back what was written gives the number. */
  lemma {:induction false} DecodeEncode(n: nat, width: nat)
    requires n < Pow256(width)
    ensures Decode(Encode(n, width)) == n
  {
    if width > 0 {
      var r := Encode(n, width);
      assert r[1..] == Encode(n / 256, width - 1);
      DecodeEncode(n / 256, width - 1);
    }
  }

  /** Writing back what was read gives the bytes. */
  lemma {:induction false} EncodeDecode(s: bytes)
    ensures Encode(Decode(s), |s|) == s
  {
    if |s| > 0 {
      var n := Decode(s);
      assert n % 256 == s[0] && n / 256 == Decode(s[1..]);
      EncodeDecode(s[1..]);
      assert s == [s[0]] + s[1..];
    }
  }

  /** A number that fits in `width` bytes gains a zero byte when written one
      byte wider. */
  lemma {:induction false} EncodeWiden(n: nat, width: nat)
    requires n < Pow256(width)
    ensures Encode(n, width + 1) == Encode(n, width) + [0]
  {
    if width > 0 {
      EncodeWiden(n / 256, width - 1);
    }
  }
}

=== FILE: protocol.dfy ===
/** Wire constants. The source imports them from ./constants, which is not
    part of this model; the values below are the MySQL client/server
    protocol's published ones. */
module Protocol {
  import opened Base

  /** Capability flags (CLIENT_LONG_PASSWORD, CLIENT_CONNECT_WITH_DB,
      CLIENT_PROTOCOL_41, CLIENT_SECURE_CONNECTION). */
  const ClientLongPassword: bv16 := 0x0001
  const ClientConnectWithDb: bv16 := 0x0008
  const ClientProtocol41: bv16 := 0x0200
  const ClientSecureConnection: bv16 := 0x8000

  /** The capability word the server greeting advertises: the bitwise or of
      the four flags above. */
  const ServerCapabilities: u16 :=
    (ClientLongPassword | ClientConnectWithDb | ClientProtocol41 | ClientSecureConnection) as int

  /** SERVER_STATUS_AUTOCOMMIT. */
  const ServerStatusAutocommit: u16 := 0x0002

  /** MYSQL_TYPE_VARCHAR. */
  const TypeVarchar: byte := 0x0F

  const ProtocolVersion: byte := 10

  /** Charset announced in the greeting when none is configured. */
  const DefaultServerCharset: byte := 0x21

  /** Charset written into every column definition. */
  const ColumnCharset: u16 := 33

  /** Display length of a VARCHAR column whose length is not given. */
  const VarcharDefaultLength: u32 := 255

  const DefaultBanner: string := "MyServer/1.0"
  const DefaultCatalog: string := "def"
  const DefaultErrorNumber: u16 := 2000
  const DefaultSqlState: string := "HY000"
}

=== FILE: readers.dfy ===
/** What a client reads back from each payload the builders write. Each
    reader is the inverse of a builder in the same length-coding form, and
    each round-trip lemma shows that a client recovers every field the
    server put in, in either form. */
module Readers {
  import opened Base
  import LittleEndian
  import LengthCoded
  import Buffers
  import Protocol
  import opened Builders

  // ---------------------------------------------------------------- OK

  datatype OkView = OkView(
    affectedRows: Option<nat>,
    insertId: Option<nat>,
    status: nat,
    warningCount: nat,
    message: Option<bytes>)

  function ParseOk(form: LengthCoded.Form, p: bytes): Option<OkView> {
    if |p| == 0 || p[0] != OkMarker then None
    else
      match LengthCoded.DecodeInt(form, p[1..])
      case None => None
      case Some(rows) =>
        match LengthCoded.DecodeInt(form, rows.rest)
        case None => None
        case Some(id) =>
          if |id.rest| < 4 then None
          else
            match LengthCoded.DecodeString(form, id.rest[4..])
            case None => None
            case Some(msg) =>
              if msg.rest != [] then None
              else Some(OkView(rows.value, id.value, LittleEndian.Decode(id.rest[..2]),
                               LittleEndian.Decode(id.rest[2..4]), msg.value))
  }

  /** An OK packet reads back with its counts, the insert id (absent stays
      absent), the autocommit status and the message (absent reads as empty). */
  lemma OkRoundTrip(form: LengthCoded.Form, f: OkFields)
    requires OkBuildable(f)
    ensures ParseOk(form, OkPayload(form, f))
         == Some(OkView(Some(f.affectedRows), f.insertId, Protocol.ServerStatusAutocommit,
                        f.warningCount, Some(f.message.GetOr([]))))
  {
    var a := LengthCoded.EncodeInt(form, Some(f.affectedRows));
    var i := LengthCoded.EncodeInt(form, f.insertId);
    var s := U16(Protocol.ServerStatusAutocommit);
    var w := U16(f.warningCount);
    var m := LengthCoded.EncodeString(form, f.message);
    var tail := s + (w + m);
    var p := OkPayload(form, f);
    assert p[1..] == a + (i + tail) by {
      ConcatAssoc([OkMarker] + a + i + s, w, m);
      ConcatAssoc([OkMarker] + a + i, s, w + m);
      ConcatAssoc([OkMarker] + a, i, tail);
      ConcatAssoc([OkMarker], a, i + tail);
      DropPrefix([OkMarker], a + (i + tail));
    }
    assert LengthCoded.DecodeInt(form, p[1..]) == Some(LengthCoded.Decoded(Some(f.affectedRows), i + tail)) by {
      LengthCoded.DecodeIntRoundTrip(form, Some(f.affectedRows), i + tail);
    }
    assert LengthCoded.DecodeInt(form, i + tail) == Some(LengthCoded.Decoded(f.insertId, tail)) by {
      LengthCoded.DecodeIntRoundTrip(form, f.insertId, tail);
    }
    assert LittleEndian.Decode(tail[..2]) == Protocol.ServerStatusAutocommit by {
      TakePrefix(s, w + m);
    }
    assert LittleEndian.Decode(tail[2..4]) == f.warningCount by {
      DropPrefix(s, w + m);
      TakePrefix(w, m);
      assert tail[2..4] == tail[2..][..2];
    }
    assert LengthCoded.DecodeString(form, tail[4..]) == Some(LengthCoded.Decoded(Some(f.message.GetOr([])), [])) by {
      DropPrefix(s, w + m);
      DropPrefix(w, m);
      LengthCoded.DecodeStringRoundTrip(form, f.message, []);
      assert m + [] == m;
    }
    ParseOkSteps(form, p, i + tail, tail);
  }

  /** ParseOk, one field after another. */
  lemma ParseOkSteps(form: LengthCoded.Form, p: bytes, afterRows: bytes, afterId: bytes)
    requires |p| > 0 && p[0] == OkMarker
    requires LengthCoded.DecodeInt(form, p[1..]).Some? && LengthCoded.DecodeInt(form, p[1..]).value.rest == afterRows
    requires LengthCoded.DecodeInt(form, afterRows).Some? && LengthCoded.DecodeInt(form, afterRows).value.rest == afterId
    requires |afterId| >= 4
    requires LengthCoded.DecodeString(form, afterId[4..]).Some? && LengthCoded.DecodeString(form, afterId[4..]).value.rest == []
    ensures ParseOk(form, p) == Some(OkView(
      LengthCoded.DecodeInt(form, p[1..]).value.value,
      LengthCoded.DecodeInt(form, afterRows).value.value,
      LittleEndian.Decode(afterId[..2]),
      LittleEndian.Decode(afterId[2..4]),
      LengthCoded.DecodeString(form, afterId[4..]).value.value))
  {
  }

  /** The OK packet src/index.js writes for an insert id of 65536 or more
      is rejected by a protocol reader: the zero fourth byte of the id shifts
      the status and warning fields by one, so the message is read from
      the wrong place and bytes are left over. */
  lemma ProtocolReaderRejectsSourceOk(f: OkFields)
    requires OkBuildable(f)
    requires f.affectedRows < 0x1_0000 && f.warningCount < 0x100
    requires f.insertId.Some? && 0x1_0000 <= f.insertId.value
    ensures ParseOk(LengthCoded.Standard, OkPayload(LengthCoded.AsWritten, f)) == None
  {
    var a := LengthCoded.EncodeInt(LengthCoded.AsWritten, Some(f.affectedRows));
    var i := LengthCoded.EncodeInt(LengthCoded.AsWritten, f.insertId);
    var s := U16(Protocol.ServerStatusAutocommit);
    var w := U16(f.warningCount);
    var m := LengthCoded.EncodeString(LengthCoded.AsWritten, f.message);
    var tail := s + (w + m);
    var p := OkPayload(LengthCoded.AsWritten, f);
    assert p[1..] == a + (i + tail) by {
      ConcatAssoc([OkMarker] + a + i + s, w, m);
      ConcatAssoc([OkMarker] + a + i, s, w + m);
      ConcatAssoc([OkMarker] + a, i, tail);
      ConcatAssoc([OkMarker], a, i + tail);
      DropPrefix([OkMarker], a + (i + tail));
    }
    assert LengthCoded.DecodeInt(LengthCoded.Standard, p[1..]) == Some(LengthCoded.Decoded(Some(f.affectedRows), i + tail)) by {
      LengthCoded.EncodersAgreeBelow65536(Some(f.affectedRows));
      LengthCoded.DecodeIntRoundTrip(LengthCoded.Standard, Some(f.affectedRows), i + tail);
    }
    assert LengthCoded.DecodeInt(LengthCoded.Standard, i + tail) == Some(LengthCoded.Decoded(f.insertId, [0] + tail)) by {
      LengthCoded.ProtocolReaderMisreadsAsWritten(f.insertId.value, tail);
    }
    ShiftedMessage(s, w, m);
    OkLeftover(LengthCoded.Standard, p, i + tail, [0] + tail, m);
  }

  /** One stray byte in front of the status and a warning count below 256:
      the message field then starts at the warning count's zero high byte. */
  lemma ShiftedMessage(s: bytes, w: bytes, m: bytes)
    requires |s| == 2 && |w| == 2 && LittleEndian.Decode(w) < 0x100
    ensures ([0] + (s + (w + m)))[4..] == [0] + m
  {
    assert w[1] == 0 by {
      assert LittleEndian.Decode(w) == w[0] + 256 * (w[1] + 256 * LittleEndian.Decode(w[2..]));
    }
    assert ([0] + (s + (w + m)))[4..] == (w + m)[1..];
    assert (w + m)[1..] == [w[1]] + m;
  }

  /** ParseOk fails when the message field is an empty string followed by
      more bytes. */
  lemma OkLeftover(form: LengthCoded.Form, p: bytes, afterRows: bytes, afterId: bytes, extra: bytes)
    requires |p| > 0 && p[0] == OkMarker
    requires LengthCoded.DecodeInt(form, p[1..]).Some? && LengthCoded.DecodeInt(form, p[1..]).value.rest == afterRows
    requires LengthCoded.DecodeInt(form, afterRows).Some? && LengthCoded.DecodeInt(form, afterRows).value.rest == afterId
    requires |afterId| >= 4 && afterId[4..] == [0] + extra && extra != []
    ensures ParseOk(form, p) == None
  {
    assert LengthCoded.DecodeString(form, afterId[4..]) == Some(LengthCoded.Decoded(Some([]), extra)) by {
      assert ([0] + extra)[1..] == extra;
    }
  }

  // ---------------------------------------------------------------- ERR

  datatype ErrView = ErrView(errno: nat, sqlState: bytes, message: bytes)

  /** Reads an ERR packet whose SQL state has the protocol's five bytes. */
  function ParseErr(p: bytes): Option<ErrView> {
    if |p| < 10 || p[0] != ErrMarker || p[3] != SqlStateMarker || p[|p| - 1] != 0 then None
    else Some(ErrView(LittleEndian.Decode(p[1..3]), p[4..9], p[9..|p| - 1]))
  }

  /** An ERR packet reads back with its number, the first five bytes of its
      SQL state and its message. */
  lemma ErrRoundTrip(f: ErrFields)
    requires |f.sqlState| >= 5
    ensures ParseErr(ErrorPayload(f)) == Some(ErrView(f.errno, f.sqlState[..5], f.message))
  {
    var p := ErrorPayload(f);
    var e := U16(f.errno);
    var st := SqlStateField(f.sqlState);
    assert p == [ErrMarker] + e + [SqlStateMarker] + st + f.message + [0];
    assert p[1..3] == e;
    assert p[4..9] == st;
    assert p[9..|p| - 1] == f.message;
  }

  // ---------------------------------------------------------------- EOF

  datatype EofView = EofView(warningCount: nat, status: nat)

  function ParseEof(p: bytes): Option<EofView> {
    if |p| != 5 || p[0] != EofMarker then None
    else Some(EofView(LittleEndian.Decode(p[1..3]), LittleEndian.Decode(p[3..5])))
  }

  lemma EofRoundTrip(warningCount: u16, serverStatus: u16)
    ensures ParseEof(EofPayload(warningCount, serverStatus)) == Some(EofView(warningCount, serverStatus))
  {
    var p := EofPayload(warningCount, serverStatus);
    assert p[1..3] == U16(warningCount);
    assert p[3..5] == U16(serverStatus);
  }

  // ---------------------------------------------------------------- rows

  /** Reads a row of `columns` cells that fills the whole payload. */
  function ParseRow(form: LengthCoded.Form, p: bytes, columns: nat): Option<Row> {
    match LengthCoded.DecodeCells(form, p, columns)
    case None => None
    case Some(d) => if d.rest == [] then Some(d.value) else None
  }

  /** A row reads back cell for cell; a null cell stays null and is not
      confused with an empty string. */
  lemma RowRoundTrip(form: LengthCoded.Form, row: Row)
    requires LengthCoded.CellsEncodable(row)
    ensures ParseRow(form, RowPayload(form, row), |row|) == Some(row)
  {
    LengthCoded.DecodeCellsRoundTrip(form, row, []);
    assert RowPayload(form, row) + [] == RowPayload(form, row);
  }

  /** sendRows' packets each read back as their row, in order. */
  lemma RowsReadBack(form: LengthCoded.Form, rows: seq<Row>)
    requires forall j | 0 <= j < |rows| :: LengthCoded.CellsEncodable(rows[j])
    ensures var r := RowPayloads(form, rows);
      && |r| == |rows|
      && forall j | 0 <= j < |rows| :: ParseRow(form, r[j], |rows[j]|) == Some(rows[j])
  {
    var r := RowPayloads(form, rows);
    forall j | 0 <= j < |rows|
      ensures ParseRow(form, r[j], |rows[j]|) == Some(rows[j])
    {
      RowRoundTrip(form, rows[j]);
    }
  }

  // ---------------------------------------------------------------- columns

  datatype ColumnView = ColumnView(
    names: seq<Option<bytes>>,
    charset: nat,
    columnLength: nat,
    columnType: byte,
    flags: nat,
    decimals: byte,
    defaultValue: Option<Option<bytes>>)

  /** Reads the fixed part and what follows the six names. */
  function ParseColumnTail(form: LengthCoded.Form, names: seq<Option<bytes>>, q: bytes, includeDefaults: bool): Option<ColumnView> {
    if |q| < 13 || q[0] != ColumnFixedLength || q[11] != 0 || q[12] != 0 then None
    else
      var view := ColumnView(names, LittleEndian.Decode(q[1..3]), LittleEndian.Decode(q[3..7]), q[7],
                             LittleEndian.Decode(q[8..10]), q[10], None);
      if !includeDefaults then (if |q| == 13 then Some(view) else None)
      else
        match LengthCoded.DecodeString(form, q[13..])
        case None => None
        case Some(d) => if d.rest == [] then Some(view.(defaultValue := Some(d.value))) else None
  }

  /** Reads a column definition packet: six names, the fixed part, and the
      default value when defaults were included. */
  function ParseColumn(form: LengthCoded.Form, p: bytes, includeDefaults: bool): Option<ColumnView> {
    match LengthCoded.DecodeCells(form, p, 6)
    case None => None
    case Some(names) => ParseColumnTail(form, names.value, names.rest, includeDefaults)
  }

  /** The view a client gets of a definition: missing names read as empty,
      charset 33, a missing decimal count reads as 0, and a missing default
      reads as empty. */
  function ExpectedColumn(d: Definition, includeDefaults: bool): ColumnView {
    ColumnView(Names(d), Protocol.ColumnCharset, d.columnLength, d.columnType, d.flags,
               d.decimals.GetOr(0), if includeDefaults then Some(Some(d.defaultValue.GetOr([]))) else None)
  }

  lemma ColumnFixedPartFields(d: Definition)
    ensures var q := ColumnFixedPart(d);
      q[0] == ColumnFixedLength && q[11] == 0 && q[12] == 0
      && LittleEndian.Decode(q[1..3]) == Protocol.ColumnCharset
      && LittleEndian.Decode(q[3..7]) == d.columnLength
      && q[7] == d.columnType && LittleEndian.Decode(q[8..10]) == d.flags && q[10] == d.decimals.GetOr(0)
  {
    var q := ColumnFixedPart(d);
    assert q[1..3] == U16(Protocol.ColumnCharset);
    assert q[3..7] == U32(d.columnLength);
    assert q[8..10] == U16(d.flags);
  }

  /** A column definition reads back with all six names, the charset, the
      display length, type, flags, decimals and, when included, the default. */
  lemma ColumnRoundTrip(form: LengthCoded.Form, d: Definition, includeDefaults: bool)
    requires DefinitionBuildable(d, includeDefaults)
    ensures ParseColumn(form, ColumnDefinitionPayload(form, d, includeDefaults), includeDefaults)
         == Some(ExpectedColumn(d, includeDefaults))
  {
    var names := LengthCoded.EncodeCells(form, Names(d));
    var fixed := ColumnFixedPart(d);
    var dflt := if includeDefaults then LengthCoded.EncodeString(form, d.defaultValue) else [];
    var q := fixed + dflt;
    assert ColumnDefinitionPayload(form, d, includeDefaults) == names + q by {
      ConcatAssoc(names, fixed, dflt);
    }
    LengthCoded.DecodeCellsRoundTrip(form, Names(d), q);
    ColumnTailRoundTrip(form, d, includeDefaults);
  }

  lemma ColumnTailRoundTrip(form: LengthCoded.Form, d: Definition, includeDefaults: bool)
    requires DefinitionBuildable(d, includeDefaults)
    ensures ParseColumnTail(form, Names(d), ColumnFixedPart(d)
              + (if includeDefaults then LengthCoded.EncodeString(form, d.defaultValue) else []), includeDefaults)
         == Some(ExpectedColumn(d, includeDefaults))
  {
    var dflt := if includeDefaults then LengthCoded.EncodeString(form, d.defaultValue) else [];
    FixedPartThen(d, dflt);
    if includeDefaults {
      assert LengthCoded.DecodeString(form, dflt) == Some(LengthCoded.Decoded(Some(d.defaultValue.GetOr([])), [])) by {
        LengthCoded.DecodeStringRoundTrip(form, d.defaultValue, []);
        assert dflt + [] == dflt;
      }
    }
    ColumnTailSteps(form, Names(d), ColumnFixedPart(d) + dflt, includeDefaults, d.columnLength, d.columnType, d.flags,
                    d.decimals.GetOr(0), d.defaultValue.GetOr([]));
  }

  /** The fields of the fixed part where a reader looks for them, with
      whatever follows it left after byte 13. */
  lemma FixedPartThen(d: Definition, after: bytes)
    ensures var q := ColumnFixedPart(d) + after;
      && |q| >= 13 && q[13..] == after
      && q[0] == ColumnFixedLength && q[11] == 0 && q[12] == 0
      && LittleEndian.Decode(q[1..3]) == Protocol.ColumnCharset
      && LittleEndian.Decode(q[3..7]) == d.columnLength
      && q[7] == d.columnType && LittleEndian.Decode(q[8..10]) == d.flags && q[10] == d.decimals.GetOr(0)
  {
    var fixed := ColumnFixedPart(d);
    ColumnFixedPartFields(d);
    DropPrefix(fixed, after);
    SliceOfPrefix(fixed, after, 1, 3);
    SliceOfPrefix(fixed, after, 3, 7);
    SliceOfPrefix(fixed, after, 8, 10);
  }

  /** ParseColumnTail, one field after another. */
  lemma ColumnTailSteps(form: LengthCoded.Form, names: seq<Option<bytes>>, q: bytes, includeDefaults: bool,
                        columnLength: nat, columnType: byte, flags: nat, decimals: byte, dflt: bytes)
    requires |q| >= 13 && q[0] == ColumnFixedLength && q[11] == 0 && q[12] == 0
    requires LittleEndian.Decode(q[1..3]) == Protocol.ColumnCharset
    requires LittleEndian.Decode(q[3..7]) == columnLength
    requires q[7] == columnType && LittleEndian.Decode(q[8..10]) == flags && q[10] == decimals
    requires !includeDefaults ==> |q| == 13
    requires includeDefaults ==> LengthCoded.DecodeString(form, q[13..]) == Some(LengthCoded.Decoded(Some(dflt), []))
    ensures ParseColumnTail(form, names, q, includeDefaults)
         == Some(ColumnView(names, Protocol.ColumnCharset, columnLength, columnType, flags, decimals,
                            if includeDefaults then Some(Some(dflt)) else None))
  {
  }

  /** sendFieldList's definition packets each read back as their column, in
      order. */
  lemma DefinitionsReadBack(form: LengthCoded.Form, columns: seq<Definition>, includeDefaults: bool)
    requires forall i | 0 <= i < |columns| :: DefinitionBuildable(columns[i], includeDefaults)
    ensures var r := DefinitionPayloads(form, columns, includeDefaults);
      && |r| == |columns|
      && forall i | 0 <= i < |columns| :: ParseColumn(form, r[i], includeDefaults) == Some(ExpectedColumn(columns[i], includeDefaults))
  {
    var r := DefinitionPayloads(form, columns, includeDefaults);
    forall i | 0 <= i < |columns|
      ensures ParseColumn(form, r[i], includeDefaults) == Some(ExpectedColumn(columns[i], includeDefaults))
    {
      ColumnRoundTrip(form, columns[i], includeDefaults);
    }
  }

  /** What a client reads from the definition newDefinition makes: the
      catalog, "def" when none was given; the other names, empty when
      missing; charset 33; the type, VARCHAR unless a nonzero one was given;
      the length, 255 for VARCHAR and 0 for other types unless a nonzero one
      was given; flags and decimals, 0 when missing; the default, empty when
      missing. */
  lemma NewColumnReadsBack(form: LengthCoded.Form, spec: ColumnSpec, includeDefaults: bool)
    requires DefinitionBuildable(NewDefinition(spec), includeDefaults)
    ensures var v := ParseColumn(form, ColumnDefinitionPayload(form, NewDefinition(spec), includeDefaults), includeDefaults);
      && v.Some?
      && v.value.names[0] == Some(if Filled(spec.catalog) then spec.catalog.value else Ascii(Protocol.DefaultCatalog))
      && v.value.names[1..] == [Some(spec.db.GetOr([])), Some(spec.table.GetOr([])), Some(spec.orgTable.GetOr([])),
                                Some(spec.name.GetOr([])), Some(spec.orgName.GetOr([]))]
      && v.value.charset == Protocol.ColumnCharset
      && v.value.columnType == (if Truthy(spec.columnType) then spec.columnType.value else Protocol.TypeVarchar)
      && v.value.columnLength == (if Truthy(spec.length) then spec.length.value
                                  else if v.value.columnType == Protocol.TypeVarchar then Protocol.VarcharDefaultLength
                                  else 0)
      && v.value.flags == spec.flags.GetOr(0)
      && v.value.decimals == spec.decimals.GetOr(0)
      && v.value.defaultValue == (if includeDefaults then Some(Some(spec.defaultValue.GetOr([]))) else None)
  {
    ColumnRoundTrip(form, NewDefinition(spec), includeDefaults);
  }

  /** A column given by its name alone reads back as a VARCHAR(255) in
      catalog "def" with charset 33, every other name empty and an empty
      default. */
  lemma NamedColumnReadsBack(form: LengthCoded.Form, name: bytes)
    requires |name| < LengthCoded.Limit
    ensures ParseColumn(form, ColumnDefinitionPayload(form, NewDefinition(NameOnly(name)), true), true)
         == Some(ColumnView([Some(Ascii(Protocol.DefaultCatalog)), Some([]), Some([]), Some([]), Some(name), Some([])],
                            33, 255, 0x0F, 0, 0, Some(Some([]))))
  {
    var d := NewDefinition(NameOnly(name));
    assert Names(d) == [Some(Ascii(Protocol.DefaultCatalog)), Some([]), Some([]), Some([]), Some(name), Some([])];
    ColumnRoundTrip(form, d, true);
  }

  // ---------------------------------------------------------------- greeting

  datatype GreetingView = GreetingView(
    banner: bytes,
    connectionId: nat,
    salt: bytes,
    capabilities: nat,
    charset: byte,
    status: nat)

  /** Reads a HandshakeV10 payload: the banner runs to the first NUL after
      the protocol byte; the salt is the eight bytes after the connection id
      joined with everything between the reserved bytes and the final NUL. */
  function ParseServerHello(p: bytes): Option<GreetingView> {
    if |p| == 0 || p[0] != Protocol.ProtocolVersion then None
    else
      var e := Buffers.IndexOf(p, 0, 1);
      if e < 0 || |p| < e + 33 || p[e + 13] != 0 || p[|p| - 1] != 0 then None
      else
        Some(GreetingView(p[1..e], LittleEndian.Decode(p[e + 1..e + 5]), p[e + 5..e + 13] + p[e + 32..|p| - 1],
                          LittleEndian.Decode(p[e + 14..e + 16]), p[e + 16], LittleEndian.Decode(p[e + 17..e + 19])))
  }

  /** A client reads back the banner, connection id, the whole salt, the
      capability word, the charset and the status, provided the banner holds
      no NUL byte. */
  lemma ServerHelloRoundTrip(o: ServerOptions)
    requires |o.salt| >= 8
    requires NoNul(Banner(o))
    ensures ParseServerHello(ServerHelloPayload(o))
         == Some(GreetingView(Banner(o), o.connectionId, o.salt, Protocol.ServerCapabilities,
                              GreetingCharset(o), Protocol.ServerStatusAutocommit))
  {
    var b := Banner(o);
    var p := ServerHelloPayload(o);
    var id := U32(o.connectionId);
    var caps := U16(Protocol.ServerCapabilities);
    var st := U16(Protocol.ServerStatusAutocommit);
    var e := 1 + |b|;
    assert p == [Protocol.ProtocolVersion] + b + [0] + id + o.salt[..8] + [0] + caps + [GreetingCharset(o)] + st
      + Zeros(13) + o.salt[8..] + [0];
    GreetingLayout(Protocol.ProtocolVersion, b, id, o.salt[..8], caps, GreetingCharset(o), st, Zeros(13), o.salt[8..]);
    assert o.salt[..8] + o.salt[8..] == o.salt;
  }

  /** Where the fields of a HandshakeV10 payload sit, for any field values
      of the protocol's widths and a banner without NUL bytes. */
  lemma GreetingLayout(version: byte, b: bytes, id: bytes, salt1: bytes, caps: bytes, charset: byte,
                       st: bytes, filler: bytes, salt2: bytes)
    requires NoNul(b)
    requires |id| == 4 && |salt1| == 8 && |caps| == 2 && |st| == 2 && |filler| == 13
    ensures var p := [version] + b + [0] + id + salt1 + [0] + caps + [charset] + st + filler + salt2 + [0];
      var e := 1 + |b|;
      && |p| == e + 33 + |salt2| && p[0] == version && p[|p| - 1] == 0
      && Buffers.IndexOf(p, 0, 1) == e
      && p[1..e] == b && p[e + 1..e + 5] == id && p[e + 5..e + 13] == salt1 && p[e + 13] == 0
      && p[e + 14..e + 16] == caps && p[e + 16] == charset && p[e + 17..e + 19] == st
      && p[e + 32..|p| - 1] == salt2
  {
    GreetingHead(version, b, id, salt1, caps, charset, st, filler, salt2);
    GreetingTail(version, b, id, salt1, caps, charset, st, filler, salt2);
  }

  lemma GreetingHead(version: byte, b: bytes, id: bytes, salt1: bytes, caps: bytes, charset: byte,
                     st: bytes, filler: bytes, salt2: bytes)
    requires NoNul(b)
    requires |id| == 4 && |salt1| == 8 && |caps| == 2 && |st| == 2 && |filler| == 13
    ensures var p := [version] + b + [0] + id + salt1 + [0] + caps + [charset] + st + filler + salt2 + [0];
      var e := 1 + |b|;
      && Buffers.IndexOf(p, 0, 1) == e
      && p[1..e] == b && p[e + 1..e + 5] == id && p[e + 5..e + 13] == salt1 && p[e + 13] == 0
  {
    var front := [version] + b + [0] + id + salt1 + [0];
    var p := [version] + b + [0] + id + salt1 + [0] + caps + [charset] + st + filler + salt2 + [0];
    var e := 1 + |b|;
    assert p[1..e] == b && p[e] == 0 by {
      assert p[1..e] == front[1..e];
    }
    Buffers.IndexOfAfterRun(p, 0, 1, |b|);
    assert p[e + 1..e + 5] == id by {
      assert p[e + 1..e + 5] == front[e + 1..e + 5];
    }
    assert p[e + 5..e + 13] == salt1 by {
      assert p[e + 5..e + 13] == front[e + 5..e + 13];
    }
  }

  lemma GreetingTail(version: byte, b: bytes, id: bytes, salt1: bytes, caps: bytes, charset: byte,
                     st: bytes, filler: bytes, salt2: bytes)
    requires |id| == 4 && |salt1| == 8 && |caps| == 2 && |st| == 2 && |filler| == 13
    ensures var p := [version] + b + [0] + id + salt1 + [0] + caps + [charset] + st + filler + salt2 + [0];
      var e := 1 + |b|;
      && |p| == e + 33 + |salt2| && p[0] == version && p[|p| - 1] == 0
      && p[e + 14..e + 16] == caps && p[e + 16] == charset && p[e + 17..e + 19] == st
      && p[e + 32..|p| - 1] == salt2
  {
    var front := [version] + b + [0] + id + salt1 + [0] + caps + [charset] + st;
    var p := [version] + b + [0] + id + salt1 + [0] + caps + [charset] + st + filler + salt2 + [0];
    var e := 1 + |b|;
    assert p[e + 14..e + 16] == caps by {
      assert p[e + 14..e + 16] == front[e + 14..e + 16];
    }
    assert p[e + 17..e + 19] == st by {
      assert p[e + 17..e + 19] == front[e + 17..e + 19];
    }
    assert p[e + 32..|p| - 1] == salt2;
  }

  // ---------------------------------------------------------------- result sets

  /** The packets of a result set read back as the protocol lays them out:
      with no columns a single OK packet; otherwise the column count, one
      definition per column with its default, an EOF packet, one packet per
      row holding exactly that row's cells, and a final EOF packet. */
  lemma QueryResponseReadsBack(form: LengthCoded.Form, columns: seq<Definition>, rows: seq<Row>)
    requires QueryBuildable(columns, rows)
    ensures var r := QueryResponsePayloads(form, columns, rows);
      && (|columns| == 0 ==> |r| == 1 && ParseOk(form, r[0]) == Some(OkView(Some(0), None, Protocol.ServerStatusAutocommit, 0, Some([]))))
      && (|columns| > 0 ==>
            && |r| == |columns| + |rows| + 3
            && LengthCoded.DecodeInt(form, r[0]) == Some(LengthCoded.Decoded(Some(|columns|), []))
            && (forall i | 0 <= i < |columns| :: ParseColumn(form, r[1 + i], true) == Some(ExpectedColumn(columns[i], true)))
            && ParseEof(r[|columns| + 1]) == Some(EofView(0, Protocol.ServerStatusAutocommit))
            && (forall j | 0 <= j < |rows| :: ParseRow(form, r[|columns| + 2 + j], |rows[j]|) == Some(rows[j]))
            && ParseEof(r[|r| - 1]) == Some(EofView(0, Protocol.ServerStatusAutocommit)))
  {
    if |columns| == 0 {
      OkRoundTrip(form, PlainOk);
    } else {
      ResultSetReadsBack(form, columns, rows);
    }
  }

  /** The result-set half of QueryResponseReadsBack. */
  lemma ResultSetReadsBack(form: LengthCoded.Form, columns: seq<Definition>, rows: seq<Row>)
    requires QueryBuildable(columns, rows) && |columns| > 0
    ensures var r := QueryResponsePayloads(form, columns, rows);
      && |r| == |columns| + |rows| + 3
      && LengthCoded.DecodeInt(form, r[0]) == Some(LengthCoded.Decoded(Some(|columns|), []))
      && (forall i | 0 <= i < |columns| :: ParseColumn(form, r[1 + i], true) == Some(ExpectedColumn(columns[i], true)))
      && ParseEof(r[|columns| + 1]) == Some(EofView(0, Protocol.ServerStatusAutocommit))
      && (forall j | 0 <= j < |rows| :: ParseRow(form, r[|columns| + 2 + j], |rows[j]|) == Some(rows[j]))
      && ParseEof(r[|r| - 1]) == Some(EofView(0, Protocol.ServerStatusAutocommit))
  {
    var n := |columns|;
    var count := LengthCoded.EncodeInt(form, Some(n));
    var defs := DefinitionPayloads(form, columns, true);
    var eof := PlainEof();
    var rowPayloads := RowPayloads(form, rows);
    assert LengthCoded.DecodeInt(form, count) == Some(LengthCoded.Decoded(Some(n), [])) by {
      LengthCoded.DecodeIntRoundTrip(form, Some(n), []);
      assert count + [] == count;
    }
    DefinitionsReadBack(form, columns, true);
    EofRoundTrip(0, Protocol.ServerStatusAutocommit);
    RowsReadBack(form, rows);
    ResultSetPieces(form, count, defs, eof, rowPayloads, columns, rows);
  }

  /** A result set read back from pieces that each read back. */
  lemma ResultSetPieces(form: LengthCoded.Form, count: bytes, defs: seq<bytes>, eof: bytes, rowPayloads: seq<bytes>,
                        columns: seq<Definition>, rows: seq<Row>)
    requires LengthCoded.DecodeInt(form, count) == Some(LengthCoded.Decoded(Some(|columns|), []))
    requires |defs| == |columns|
    requires forall i | 0 <= i < |columns| :: ParseColumn(form, defs[i], true) == Some(ExpectedColumn(columns[i], true))
    requires ParseEof(eof) == Some(EofView(0, Protocol.ServerStatusAutocommit))
    requires |rowPayloads| == |rows|
    requires forall j | 0 <= j < |rows| :: ParseRow(form, rowPayloads[j], |rows[j]|) == Some(rows[j])
    ensures var r := [count] + defs + [eof] + rowPayloads + [eof];
      && |r| == |columns| + |rows| + 3
      && LengthCoded.DecodeInt(form, r[0]) == Some(LengthCoded.Decoded(Some(|columns|), []))
      && (forall i | 0 <= i < |columns| :: ParseColumn(form, r[1 + i], true) == Some(ExpectedColumn(columns[i], true)))
      && ParseEof(r[|columns| + 1]) == Some(EofView(0, Protocol.ServerStatusAutocommit))
      && (forall j | 0 <= j < |rows| :: ParseRow(form, r[|columns| + 2 + j], |rows[j]|) == Some(rows[j]))
      && ParseEof(r[|r| - 1]) == Some(EofView(0, Protocol.ServerStatusAutocommit))
  {
    var r := [count] + defs + [eof] + rowPayloads + [eof];
    var n := |columns|;
    assert |r| == n + |rows| + 3 && r[0] == count && r[n + 1] == eof && r[|r| - 1] == eof by {
      ResultSetLayout(count, defs, eof, rowPayloads, n);
    }
    assert forall i | 0 <= i < n :: ParseColumn(form, r[1 + i], true) == Some(ExpectedColumn(columns[i], true)) by {
      ResultSetLayout(count, defs, eof, rowPayloads, n);
      ColumnsInResultSet(form, r, defs, columns);
    }
    assert forall j | 0 <= j < |rows| :: ParseRow(form, r[n + 2 + j], |rows[j]|) == Some(rows[j]) by {
      ResultSetLayout(count, defs, eof, rowPayloads, n);
      RowsInResultSet(form, r, n, rowPayloads, rows);
    }
  }

  lemma ColumnsInResultSet(form: LengthCoded.Form, r: seq<bytes>, defs: seq<bytes>, columns: seq<Definition>)
    requires |defs| == |columns| && 1 + |defs| <= |r|
    requires forall i | 0 <= i < |columns| :: r[1 + i] == defs[i]
    requires forall i | 0 <= i < |columns| :: ParseColumn(form, defs[i], true) == Some(ExpectedColumn(columns[i], true))
    ensures forall i | 0 <= i < |columns| :: ParseColumn(form, r[1 + i], true) == Some(ExpectedColumn(columns[i], true))
  {
    forall i | 0 <= i < |columns|
      ensures ParseColumn(form, r[1 + i], true) == Some(ExpectedColumn(columns[i], true))
    {
      assert r[1 + i] == defs[i];
    }
  }

  lemma RowsInResultSet(form: LengthCoded.Form, r: seq<bytes>, n: nat, rowPayloads: seq<bytes>, rows: seq<Row>)
    requires |rowPayloads| == |rows| && n + 2 + |rows| <= |r|
    requires forall j | 0 <= j < |rowPayloads| :: r[n + 2 + j] == rowPayloads[j]
    requires forall j | 0 <= j < |rows| :: ParseRow(form, rowPayloads[j], |rows[j]|) == Some(rows[j])
    ensures forall j | 0 <= j < |rows| :: ParseRow(form, r[n + 2 + j], |rows[j]|) == Some(rows[j])
  {
    forall j | 0 <= j < |rows|
      ensures ParseRow(form, r[n + 2 + j], |rows[j]|) == Some(rows[j])
    {
      assert r[n + 2 + j] == rowPayloads[j];
    }
  }

  lemma ResultSetLayout<T>(count: T, defs: seq<T>, eof: T, rows: seq<T>, n: nat)
    requires |defs| == n
    ensures var r := [count] + defs + [eof] + rows + [eof];
      && |r| == n + |rows| + 3
      && r[0] == count
      && (forall i | 0 <= i < n :: r[1 + i] == defs[i])
      && r[n + 1] == eof
      && (forall j | 0 <= j < |rows| :: r[n + 2 + j] == rows[j])
      && r[|r| - 1] == eof
  {
  }
}
